=== FILE: README.md ===
# Meme manager extensions — a verified Dafny model

The repository is a set of server-side extensions for a headless CMS that stores
"memes": a like manager, a synchroniser that keeps a Meilisearch index in step with
the memes collection, search and setup endpoints in front of that index, and a
one-off script that dumps an SQLite database as SQL text. This project models the
behaviour inside those handlers. The CMS item service is modelled as Dafny maps and
sequences, the search index as `map<Key, Doc>`, and the engine's search hits as an
input sequence.

- `wrappers.dfy`: `Option`, standing for JavaScript's `null`/`undefined` and for failed parses.
- `keys.dfy`: the primary-key type of memes and users, which like rows also use to refer to them (a like row's own id is a number).
- `text.dfy`: the JavaScript string operations the handlers use (`join`, `split`, `trim`, `indexOf`, `replace`, `endsWith`), with their defining properties.
- `memes.dfy`: the meme record with its expanded creator and tag relations, the search document, the field derivations shared by both projections, and the index operations `addDocuments` / `deleteDocuments`.
- `meilisearch_sync.dfy`: `transformMemeForSearch` and the create, update and delete hooks. The hooks are written twice: as functions of the index, and as methods of the class `SyncedIndex`, which mutates its `docs` map.
- `like_manager.dfy`: the `/toggle` and `/status/:meme_id` handlers. `Toggle` is a function over the rows and counters, with the invariants it keeps. The class `LikeStore` runs the handlers against mutable fields.
- `search.dfy`: the filter expression, the sort directives and the pagination of `GET /memes`, and the `GET /memes/suggest` shortcut.
- `search_setup.dfy`: the backfill projection, the bulk add and the setup response, compared with the synchroniser's projection.
- `export_db.dfy`: SQL literals, `INSERT` lines and the two output scripts, plus a literal parser used as the decoder in the round-trip proofs.

## Model

| member | source | states |
|---|---|---|
| `MeilisearchSync.ReadOne` | extensions/meilisearch-sync/src/index.js:22-31 | reading a key yields a meme iff one is stored under it, and the meme carries that key as its id |
| `MeilisearchSync.TransformMemeForSearch` | extensions/meilisearch-sync/src/index.js:33-49 | there is a document iff the meme exists and its status is "published"; the document keeps the meme's id and status |
| `MeilisearchSync.PublishedDocument` | extensions/meilisearch-sync/src/index.js:37-49 | for a published meme: title defaults to ""; searchable text is title + " " + description (missing read as "") and begins with the title; tags are the non-empty names; creator is trimmed; likes and views are the parsed counters, or 0 when unparsable; collection is "memes" |
| `MeilisearchSync.FreshDocument` | extensions/meilisearch-sync/src/index.js:60 | the document for a key exists iff the stored meme is published, and its id is the key |
| `MeilisearchSync.CreateOutcome` | extensions/meilisearch-sync/src/index.js:58-65 | create adds exactly one document, under the key, when the payload and the stored meme are published; otherwise the index is unchanged |
| `MeilisearchSync.UpdateOneOutcome` | extensions/meilisearch-sync/src/index.js:75-84 | one update step upserts the key's fresh document or deletes the key, and touches no other key |
| `MeilisearchSync.UpdateOutcome` | extensions/meilisearch-sync/src/index.js:74-85 | after the update hook every listed key holds its fresh document when published and is absent otherwise; every other key is unchanged |
| `MeilisearchSync.DraftPublishDeleteScenario` | extensions/meilisearch-sync/src/index.js:57-99 | a draft created is not indexed; published by an update it appears once, with title + " " + description as searchable text; deleted it is gone and the index is as before |
| `MeilisearchSync.OnCreateSpec` | extensions/meilisearch-sync/src/index.js:57-65 | the create hook touches no key other than the created one |
| `MeilisearchSync.UpdateOne` | extensions/meilisearch-sync/src/index.js:75-84 | one update step touches no key other than its own |
| `MeilisearchSync.OnUpdateSpec` | extensions/meilisearch-sync/src/index.js:74-85 | the update hook leaves every unlisted key as it was |
| `MeilisearchSync.SyncedIndex.OnCreate` | extensions/meilisearch-sync/src/index.js:57-69 | the create hook on the mutable index: `docs` gains `key ↦ document` or is unchanged |
| `MeilisearchSync.SyncedIndex.OnUpdate` | extensions/meilisearch-sync/src/index.js:72-89 | the loop over `keys` leaves `docs` equal to the update specification, with the per-key outcome above |
| `MeilisearchSync.SyncedIndex.OnDelete` | extensions/meilisearch-sync/src/index.js:92-99 | every listed key is removed, absent keys are ignored, and other documents are unchanged |
| `Memes.OrEmpty` | extensions/meilisearch-sync/src/index.js:39-40 | `x \|\| ''` yields the string when present and "" otherwise |
| `Memes.LinkName` | extensions/meilisearch-sync/src/index.js:41 | a link contributes a name iff its tag is present with a truthy name, and then exactly that name |
| `Memes.NamesOf` | extensions/meilisearch-sync/src/index.js:41 | the tag names are non-empty, at most one per link, and each is the name of some link |
| `Memes.TagNames` | extensions/meilisearch-sync/src/index.js:41 | no tag relation gives [] |
| `Memes.NamesOfAppend` | extensions/meilisearch-sync/src/index.js:41 | tag names follow relation order: the names of a concatenation are the concatenated names |
| `Memes.NamesOfSingle` | extensions/meilisearch-sync/src/index.js:41 | a link with a missing or empty name is dropped; any other contributes its name |
| `Memes.CreatorName` | extensions/meilisearch-sync/src/index.js:42 | the creator name has no surrounding whitespace |
| `Memes.CreatorBothNames` | extensions/meilisearch-sync/src/index.js:42 | when both names are present and non-empty, the first name does not start with whitespace and the last name does not end with it, the creator is first + " " + last (whitespace between them is kept) |
| `Memes.CreatorFirstNameOnly` | extensions/meilisearch-sync/src/index.js:42 | a missing last name leaves the first name without the space |
| `Memes.CreatorLastNameOnly` | extensions/meilisearch-sync/src/index.js:42 | a missing first name leaves the last name without the space |
| `Memes.CreatorMissing` | extensions/meilisearch-sync/src/index.js:42 | no creator, or one without names, gives "" |
| `Memes.CreatorId` | extensions/meilisearch-sync/src/index.js:43 | `user_created?.id`: none without a creator, otherwise the creator's id |
| `Memes.CounterOrZero` | extensions/meilisearch-sync/src/index.js:44-45 | a failed `parseInt` (NaN) gives 0, a parsed value is kept |
| `Memes.Ids` | extensions/meilisearch-sync/src/index.js:62 | the ids of a batch are exactly the ids of its documents |
| `Memes.AddDocuments` | extensions/meilisearch-sync/src/index.js:62 | after an add, the index keys are the old keys plus the batch ids, and keys outside the batch keep their document |
| `Memes.AddDocumentsLastWins` | extensions/search-setup/src/index.js:116 | the last document of the batch with a given id is what the index holds under that id |
| `Memes.DeleteDocuments` | extensions/meilisearch-sync/src/index.js:94 | a key remains iff it was present and is not listed; kept documents are unchanged |
| `SearchSetup.BackfillDocument` | extensions/search-setup/src/index.js:101-112 | the backfill document keeps the id, has no status and collection "memes"; its title and searchable text are both the title or ""; tags, creator, creator id, likes, views and creation date follow the same rules as the synchroniser, for every meme whatever its status |
| `SearchSetup.BackfillDocuments` | extensions/search-setup/src/index.js:101-112 | exactly one document per meme, in the same order, with ids preserved and no status filter |
| `SearchSetup.BackfillVersusSync` | extensions/search-setup/src/index.js:89-112 | the synchroniser gives no document for an unpublished meme, which backfill still emits; for a published one the two agree except for the appended description and the status |
| `SearchSetup.SearchableTextDiffers` | extensions/search-setup/src/index.js:104 | for every published meme the two projections' searchable texts differ |
| `SearchSetup.ReportedMatchesConfigured` | extensions/search-setup/src/index.js:124-128 | the configuration the response reports (lines 124-128) equals the attribute lists applied to the index (lines 39-58), and `tags` and `creator_id` are filterable |
| `SearchSetup.Setup` | extensions/search-setup/src/index.js:39-136 | the attribute lists are configured; documents are added only when there are memes; `documentsCount` is the number of memes read; the reported configuration equals the configured lists; every meme id ends up indexed; with memes, the new index is exactly the old one with the backfill documents added by id, so other keys keep their documents and no other key appears |
| `SearchSetup.SetupIndexesEachMeme` | extensions/search-setup/src/index.js:115-116 | a meme whose id no later meme shares is indexed as its backfill document |
| `LikeManager.LikesOf` | extensions/like-manager/src/index.js:143 | a meme's counter, with a missing one read as 0 (`likes \|\| 0`) |
| `LikeManager.FirstLike` | extensions/like-manager/src/index.js:23-34 | the first row for (meme, user) in store order, or none when there is no such row |
| `LikeManager.PairCount` | extensions/like-manager/src/index.js:32 | the pair has no rows iff no first row is found |
| `LikeManager.Toggle` | extensions/like-manager/src/index.js:12-101 | missing ids: 400 and nothing changes; an existing like: the first matching row is deleted, the counter drops by 1, "unliked"; otherwise one row is appended with a fresh id, the counter rises by 1, "liked"; other counters unchanged; `user_has_liked` iff "liked"; `likes_count` is the new counter |
| `LikeManager.ToggleKeepsOtherRows` | extensions/like-manager/src/index.js:23-58 | rows of every other (meme, user) pair are unchanged, in order |
| `LikeManager.ToggleKeepsCountersMatching` | extensions/like-manager/src/index.js:32-62 | if every counter equals its meme's row count before a toggle, this holds afterwards |
| `LikeManager.ToggleKeepsUniquePairs` | extensions/like-manager/src/index.js:32-62 | at most one row per pair is preserved |
| `LikeManager.ToggleKeepsIdsBelow` | extensions/like-manager/src/index.js:46-51 | created rows get ids not used before |
| `LikeManager.ToggleKeepsIdsIncreasing` | extensions/like-manager/src/index.js:32-51 | row ids keep growing along the store order, so no two rows share an id and deleting the first matching row is deleting that row's id |
| `LikeManager.ToggleTwiceFromUnliked` | extensions/like-manager/src/index.js:32-62 | like then unlike restores the rows exactly and the counter |
| `LikeManager.ToggleTwiceFromLiked` | extensions/like-manager/src/index.js:32-62 | unlike then like restores the pairs as a multiset and the counter |
| `LikeManager.ToggleTwiceRestores` | extensions/like-manager/src/index.js:32-62 | from at most one row per pair, two toggles restore every counter and the pairs, and restore the rows exactly when the user had not liked |
| `LikeManager.LikeStore.ToggleLike` | extensions/like-manager/src/index.js:9-110 | the handler on the stored rows and counters computes `Toggle` and keeps the store invariant (counters match rows, one row per pair, fresh ids growing in store order) |
| `LikeManager.LikeStore.Status` | extensions/like-manager/src/index.js:114-144 | 401 without a user; otherwise `user_has_liked` iff a matching row exists, and `total_likes` is the counter (0 when missing), equal to the row count under the invariant; reads only |
| `Search.Truthy` | extensions/search/src/index.js:59 | JavaScript truthiness of an optional string: present and not "" |
| `Search.IntParam` | extensions/search/src/index.js:44-48 | a missing `limit`/`offset` takes its default, a given one is its parse |
| `Search.TagValues` | extensions/search/src/index.js:59-60 | no tags or an empty single value gives no clause; a single value is a one-element list |
| `Search.QuoteAll` | extensions/search/src/index.js:62 | each tag wrapped in double quotes, in order |
| `Search.TagsClause` | extensions/search/src/index.js:62 | `tags IN [` then the quoted tags joined by "," with no space, then `]` |
| `Search.CreatorClause` | extensions/search/src/index.js:65 | `creator_id = "…"` with the creator inserted between the double quotes |
| `Search.FilterClauses` | extensions/search/src/index.js:58-66 | one clause per truthy parameter: the tags clause first when there are tags, the creator clause last when there is a creator |
| `Search.FilterCases` | extensions/search/src/index.js:58-70 | no filter when neither is given; otherwise the tags clause, the creator clause, or both joined by " AND " with tags first |
| `Search.SingleTagClause` | extensions/search/src/index.js:60-62 | a single tag string is treated as a one-element list, giving `tags IN ["t"]` |
| `Search.SortDirective` | extensions/search/src/index.js:76-80 | a directive exists iff the token ends in `_asc` or `_desc`; then the first occurrence of the suffix is replaced by `:asc` / `:desc` |
| `Search.SortDirectives` | extensions/search/src/index.js:75-81 | at most one directive per token |
| `Search.SortDirectivesAppend` | extensions/search/src/index.js:75-81 | directives keep the input order of their tokens |
| `Search.AscendingDirective` | extensions/search/src/index.js:76-77 | for a field that does not itself contain `_asc`, `field_asc` becomes `field:asc` (otherwise the first occurrence of `_asc` is the one rewritten) |
| `Search.DescendingDirective` | extensions/search/src/index.js:78-79 | for a field that does not itself contain `_desc`, `field_desc` becomes `field:desc` (otherwise the first occurrence of `_desc` is the one rewritten) |
| `Search.UnknownSuffixDropped` | extensions/search/src/index.js:75-81 | a token with neither suffix adds no directive |
| `Search.TranslateSort` | extensions/search/src/index.js:73-85 | the loop over the comma-separated tokens collects the directives; the option is set only when at least one survives |
| `Search.BuildSearchOptions` | extensions/search/src/index.js:44-85 | limit and offset defaults, the filter built from the pushed clauses, and the sort option only for a non-empty `sort` with a surviving directive |
| `Search.HandleSearch` | extensions/search/src/index.js:44-101 | the searched text is `q` or ""; the response echoes the hits and `q`; `hasNext` holds iff the hit count equals the limit (20 by default) |
| `Search.ToSuggestion` | extensions/search/src/index.js:127-131 | id and title are kept; `highlighted` is the formatted title, or the title when there is none or it is empty |
| `Search.Suggest` | extensions/search/src/index.js:112-132 | a missing or empty `q` gives [] without a search; otherwise one suggestion per hit, in order, with limit 5 by default |
| `Text.Join` | extensions/search/src/index.js:69 | no pieces join to ""; `JoinLength` gives the joined length, and `JoinSplit` and `SplitJoin` make it the inverse of `split` on one character |
| `Text.JoinSplit` | extensions/search/src/index.js:75 | joining the pieces of `split(',')` with ',' gives the string back |
| `Text.SplitJoin` | extensions/search/src/index.js:75 | splitting a join of comma-free pieces gives the pieces back |
| `Text.Split` | extensions/search/src/index.js:75 | at least one piece, and no piece contains the separator |
| `Text.JoinLength` | extensions/search/src/index.js:62 | a join holds every piece plus one separator between consecutive pieces |
| `Text.Trim` | extensions/meilisearch-sync/src/index.js:42 | the result has no whitespace at either end |
| `Text.TrimSurrounded` | extensions/meilisearch-sync/src/index.js:42 | trimming a string surrounded by whitespace gives exactly that string |
| `Text.IndexOf` | extensions/search/src/index.js:77 | the first occurrence of the pattern, or none when it never occurs |
| `Text.ReplaceFirst` | extensions/search/src/index.js:77 | no occurrence leaves the string unchanged; otherwise the text before the first occurrence is kept, `rep` stands where that occurrence stood, and the text after it is kept |
| `Text.EndsWith` | extensions/search/src/index.js:76-78 | the suffix is no longer than the string and equals its last characters |
| `Text.ReplaceOnlySuffix` | extensions/search/src/index.js:76-79 | when the suffix occurs only at the end, replacing its first occurrence rewrites exactly the ending |
| `ExportDb.EscapeQuotes` | export-db.js:40 | the escaped body contains no lone quote |
| `ExportDb.DecimalText` | export-db.js:38 | the text of an integer is non-empty and starts with a minus sign or a digit, never a quote; `IntegerRoundTrip` reads it back |
| `ExportDb.EncodeValue` | export-db.js:37-40 | null gives NULL, an integer its decimal text, a boolean 1 or 0, and anything else a quoted string literal whose body has only doubled quotes |
| `ExportDb.EncodeValues` | export-db.js:36-41 | no values give "" and one value gives its literal alone; `ValuesRoundTrip` reads any list back |
| `ExportDb.Columns` | export-db.js:35 | the column names of a row, one per field and in field order |
| `ExportDb.Values` | export-db.js:36 | the values of a row, one per field and in field order |
| `ExportDb.EncodeAll` | export-db.js:36-40 | one SQL literal per value, in order, each the encoding of that value |
| `ExportDb.QuoteIdents` | export-db.js:35 | each column name wrapped in double quotes, in order |
| `ExportDb.InsertLine` | export-db.js:42 | the head naming the table and the quoted columns, the value list, then `);` and a newline; `InsertLineFrame` and `InsertLineValues` state its frame and its values |
| `ExportDb.InsertLines` | export-db.js:34-43 | no rows give no text; otherwise the text ends with `);` and a newline |
| `ExportDb.DecodeEncode` | export-db.js:37-40 | decoding an encoded value gives it back, and a boolean comes back as 1 or 0; stripping the quotes and collapsing `''` recovers a string |
| `ExportDb.LiteralRoundTrip` | export-db.js:37-41 | a literal followed by a delimiter parses back to its value and leaves the rest |
| `ExportDb.QuotedRoundTrip` | export-db.js:40 | the doubled text and its closing quote parse back to the original text |
| `ExportDb.IntegerRoundTrip` | export-db.js:38 | an integer's text parses back to the integer |
| `ExportDb.ValuesRoundTrip` | export-db.js:36-41 | the ", "-joined value list parses back to the values in order and of the same count |
| `ExportDb.InsertLineValues` | export-db.js:35-42 | the values of an `INSERT` line read back as one value per column, in column order |
| `ExportDb.InsertLineFrame` | export-db.js:42 | an `INSERT` line starts with `INSERT INTO "t" (` and ends with `);` and a newline |
| `ExportDb.SchemaPart` | export-db.js:20-23 | a table without a truthy `sql` adds nothing; otherwise its statement followed by `;` and a blank line |
| `ExportDb.SchemaText` | export-db.js:18-23 | the schema parts of the tables concatenated in catalogue order |
| `ExportDb.DataPart` | export-db.js:33-45 | a table adds data exactly when its query returned at least one row |
| `ExportDb.DataText` | export-db.js:26-45 | the data parts of the tables concatenated in query order |
| `ExportDb.DataPartEndsWithBlankLine` | export-db.js:33-45 | a table with rows contributes its `INSERT` lines followed by one blank line |
| `ExportDb.NoRowsNoData` | export-db.js:33-45 | a table with no rows, or whose query failed, adds no `INSERT` line and no blank line |
| `ExportDb.SchemaIgnoresRows` | export-db.js:20-23 | the schema script depends only on the table statements, never on row data |
| `ExportDb.AppendSchema` | export-db.js:18-23 | listing the tables leaves both scripts equal to the schema text: each non-empty statement followed by `;` and a blank line, in catalogue order |
| `ExportDb.AppendTableData` | export-db.js:26-45 | one row callback appends exactly that table's data part: nothing for a failed query or no rows, otherwise its `INSERT` lines and a blank line |
| `ExportDb.AppendData` | export-db.js:26-45 | the row callbacks append every table's data part, table by table |
| `ExportDb.AppendInserts` | export-db.js:34-43 | the row loop appends the tables' `INSERT` lines in row order |
| `ExportDb.Dump` | export-db.js:18-45 | the schema script is each non-empty table statement + `;\n\n`; the full dump is the schema script followed by every table's data |

## Left out

- The Meilisearch client calls for health, stats and the synonyms setting are not modelled, and neither is the `/meilisearch/status` endpoint: they are network I/O to a foreign service. The index is a map, and search results are an input.
- `Search.HandleSearch`: the response omits the engine fields the handler echoes, `totalHits` (the engine's `estimatedTotalHits`), `processingTimeMs` and `facetDistribution` (extensions/search/src/index.js:93-95). They are opaque values from the engine that no modelled operation reads.
- The CMS `ItemsService`, `getSchema` and `knex` are not modelled: they are host-platform calls. The memes collection is a map (`MeilisearchSync.Store`), the like rows are a sequence, and the counters are a map.
- try/catch, logging and the fallback `ServiceUnavailableException` classes are not modelled. Errors are handled differently by each component. The like-manager handlers answer an error with a 500 (extensions/like-manager/src/index.js:104-110, :146-152). The search and setup handlers log it and rethrow it as a 503 `ServiceUnavailableException` (extensions/search/src/index.js:103-105, extensions/search-setup/src/index.js:139-141); the suggest handler rethrows the 503 without logging (extensions/search/src/index.js:134-136). The hooks only log. The search handler's index-existence probe, which answers 500 when the index is missing (extensions/search/src/index.js:31-41), is not modelled either; the projection's own catch is described on a `MeilisearchSync.SyncedIndex.OnUpdate` line below. In particular, a failure in the middle of the update hook's loop, which leaves the later keys unprocessed, is not modelled.
- The WebSocket broadcast and `new Date().toISOString()` in the like manager are not modelled: they are side-channel I/O and the wall clock.
- Concurrent toggles on the same pair are not modelled, because the model is sequential. With no uniqueness constraint in the store, two racing toggles can both create a row.
- `LikeManager.Toggle`: the handler's two writes are not atomic and the model applies them as one step. The handler first writes the like row (extensions/like-manager/src/index.js:34 or :48) and then the counter (:37-41 or :54-58). A failure between them leaves the counter one off from the row count, which `LikeManager.ToggleKeepsCountersMatching` does not cover. A failure in the read-backs at :65-71, after both writes, answers 500 although the toggle took effect.
- `LikeManager.Toggle`: a meme with no counter reads as 0. The host's behaviour when `meme_id` names no meme, or when the stored `likes` is null, is not modelled. Row deletion is by position, which is the same as deletion by id because row ids grow along the store order (`LikeManager.ToggleKeepsIdsIncreasing`).
- An empty string stands for a missing or falsy identifier (`meme_id`, the caller's user id). The query parameters `q`, `creator` and `sort` are `Option<string>`: `None` when missing, and `Search.Truthy` gives JavaScript truthiness, treating `None` and `Some("")` alike. Numeric ids are modelled as their text.
- `parseInt` on arbitrary strings and JavaScript number formatting are not modelled. A parse result is an `Option<int>` (`None` is NaN), numbers are integers, and floats are out of scope.
- `MeilisearchSync.SyncedIndex.OnUpdate`: a failed read of the meme is not modelled. `transformMemeForSearch` catches it and returns null (extensions/meilisearch-sync/src/index.js:50-53), and the update hook then deletes the key (:80-83), so a published meme whose read fails loses its document. The model's read always succeeds, and only a missing or unpublished meme deletes the key.
- `MeilisearchSync.SyncedIndex.OnUpdate`: `updateDocuments` replaces the document. The engine's partial-update merge, which keeps old fields for undefined ones such as a missing `creator_id`, is not modelled.
- The synonym table, the environment-based host, API key and index name, and the fixed display options of the search (highlight and crop settings) are constant configuration and are not modelled.
- Tag and creator values are put into the filter expression without escaping, exactly as the handler does. The engine's filter grammar is not modelled, so what such a filter then matches is not stated.
- `ExportDb.Dump`: the `pending` counter, the sqlite3 access and `fs.writeFileSync` (export-db.js:16, 29, 47-48) are not modelled. The row callbacks are taken to complete in the order the queries were issued. Left out with them: the error path at export-db.js:27-31 decrements the counter but never writes the files, so a failing last query loses both outputs, and an empty database writes no files at all.
- The selection of tables (`NOT LIKE 'sqlite_%'`, `ORDER BY name`) happens in SQLite and is not modelled; the table list is an input.
- Binary (BLOB) values and non-integer numbers are not modelled in `ExportDb.Value`.
- Table and column names are put between double quotes without escaping, as in the script; a name containing `"` is not given special treatment.

=== FILE: export_db.dfy ===
/**
 * The database exporter: each row value becomes an SQL literal (a character
 * string literal with embedded quotes doubled, as in the <literal> rule of
 * ISO/IEC 9075-2, Subclause 5.3), each row an `INSERT` line, and the schema
 * statements and the rows accumulate into a schema-only script and a full dump.
 * A literal parser serves as the decoder against which the encoding is proved.
 */
module ExportDb {
  import opened Wrappers
  import opened Text

  /** A column value as the database driver returns it (numbers are integers here). */
  datatype Value = Null | Int(n: int) | Bool(b: bool) | Str(s: string)

  // ---------------------------------------------------------------------------
  // Integers as decimal text

  predicate IsDigit(c: char) {
    '0' <= c <= '9'
  }

  predicate AllDigits(s: string) {
    forall i :: 0 <= i < |s| ==> IsDigit(s[i])
  }

  function DigitChar(d: nat): (c: char)
    requires d < 10
    ensures IsDigit(c) && (c as int) - ('0' as int) == d
  {
    "0123456789"[d]
  }

  /** Decimal digits of a non-negative integer, without leading zeros. */
  function DigitsOf(n: nat): (r: string)
    ensures |r| >= 1 && AllDigits(r)
  {
    if n < 10 then [DigitChar(n)] else DigitsOf(n / 10) + [DigitChar(n % 10)]
  }

  /** The integer a run of digits denotes. */
  function DigitsValue(s: string): nat
    requires AllDigits(s)
  {
    if |s| == 0 then 0 else DigitsValue(s[..|s| - 1]) * 10 + ((s[|s| - 1] as int) - ('0' as int))
  }

  lemma {:induction false} DigitsValueOf(n: nat)
    ensures DigitsValue(DigitsOf(n)) == n
  {
    if n >= 10 {
      DigitsValueOf(n / 10);
      var s := DigitsOf(n);
      assert s[..|s| - 1] == DigitsOf(n / 10);
    }
  }

  /** The text of an integer in JavaScript: optional minus sign, then its digits. */
  function DecimalText(n: int): (r: string)
    ensures |r| > 0 && r[0] != '\'' && (r[0] == '-' || IsDigit(r[0]))
  {
    if n < 0 then "-" + DigitsOf(-n) else DigitsOf(n)
  }

  // ---------------------------------------------------------------------------
  // Encoding

  /** No quote stands alone: every quote is the first of a pair `''`. */
  predicate QuotesPaired(body: string)
    decreases |body|
  {
    if |body| == 0 then true
    else if body[0] == '\'' then |body| >= 2 && body[1] == '\'' && QuotesPaired(body[2..])
    else QuotesPaired(body[1..])
  }

  /** `String(v).replace(/'/g, "''")`: every quote doubled. */
  function EscapeQuotes(s: string): (r: string)
    ensures QuotesPaired(r)
    ensures |r| >= |s|
  {
    if |s| == 0 then ""
    else
      var rest := EscapeQuotes(s[1..]);
      if s[0] == '\'' then
        assert ("''" + rest)[2..] == rest;
        "''" + rest
      else
        assert ([s[0]] + rest)[1..] == rest;
        [s[0]] + rest
  }

  /** A value as an SQL literal. */
  function EncodeValue(v: Value): (r: string)
    ensures |r| > 0
    ensures v.Null? ==> r == "NULL"
    ensures v.Int? ==> r == DecimalText(v.n)
    ensures v.Bool? ==> r == (if v.b then "1" else "0")
    ensures v.Str? ==> |r| >= 2 && r[0] == '\'' && r[|r| - 1] == '\'' && QuotesPaired(r[1..|r| - 1])
  {
    match v
    case Null => "NULL"
    case Int(n) => DecimalText(n)
    case Bool(b) => if b then "1" else "0"
    case Str(s) =>
      var r := "'" + EscapeQuotes(s) + "'";
      assert r[1..|r| - 1] == EscapeQuotes(s);
      r
  }

  /** The value the literal denotes when read back: booleans come back as the integers 1 and 0. */
  function Normalize(v: Value): Value {
    if v.Bool? then Int(if v.b then 1 else 0) else v
  }

  function EncodeAll(vals: seq<Value>): (r: seq<string>)
    ensures |r| == |vals|
    ensures forall i :: 0 <= i < |vals| ==> r[i] == EncodeValue(vals[i])
  {
    if |vals| == 0 then [] else [EncodeValue(vals[0])] + EncodeAll(vals[1..])
  }

  /** `Object.values(row).map(...).join(', ')`. */
  function EncodeValues(vals: seq<Value>): (r: string)
    ensures |vals| == 0 ==> r == ""
    ensures |vals| == 1 ==> r == EncodeValue(vals[0])
  {
    Join(EncodeAll(vals), ", ")
  }

  function NormalizeAll(vals: seq<Value>): (r: seq<Value>)
    ensures |r| == |vals|
    ensures forall i :: 0 <= i < |vals| ==> r[i] == Normalize(vals[i])
  {
    if |vals| == 0 then [] else [Normalize(vals[0])] + NormalizeAll(vals[1..])
  }

  // ---------------------------------------------------------------------------
  // Decoding

  /** Length of the run of digits at the start of `s`. */
  function DigitRun(s: string): (n: nat)
    ensures n <= |s| && AllDigits(s[..n])
    ensures n < |s| ==> !IsDigit(s[n])
  {
    if |s| == 0 || !IsDigit(s[0]) then 0
    else
      var n := 1 + DigitRun(s[1..]);
      assert s[..n] == [s[0]] + s[1..][..n - 1];
      n
  }

  /** An integer literal at the start of `s`, and what follows it. */
  function ParseInteger(s: string): (r: Option<(int, string)>)
    ensures r.Some? ==> |r.value.1| < |s|
  {
    var negative := |s| > 0 && s[0] == '-';
    var body := if negative then s[1..] else s;
    var n := DigitRun(body);
    if n == 0 then None
    else
      var magnitude: int := DigitsValue(body[..n]);
      Some((if negative then -magnitude else magnitude, body[n..]))
  }

  /**
   * The rest of a quoted string after its opening quote: the text with each
   * `''` collapsed to `'`, and what follows the closing quote.
   */
  function ParseQuoted(s: string): (r: Option<(string, string)>)
    ensures r.Some? ==> |r.value.1| < |s|
    decreases |s|
  {
    if |s| == 0 then None
    else if s[0] == '\'' then
      if |s| >= 2 && s[1] == '\'' then
        match ParseQuoted(s[2..])
        case Some((t, rest)) => Some(("'" + t, rest))
        case None => None
      else Some(("", s[1..]))
    else
      match ParseQuoted(s[1..])
      case Some((t, rest)) => Some(([s[0]] + t, rest))
      case None => None
  }

  /** One literal at the start of `s`, and what follows it. */
  function ParseLiteral(s: string): (r: Option<(Value, string)>)
    ensures r.Some? ==> |r.value.1| < |s|
  {
    if StartsWith(s, "NULL") then Some((Null, s[4..]))
    else if |s| > 0 && s[0] == '\'' then
      match ParseQuoted(s[1..])
      case Some((t, rest)) => Some((Str(t), rest))
      case None => None
    else
      match ParseInteger(s)
      case Some((n, rest)) => Some((Int(n), rest))
      case None => None
  }

  /** A single literal, with nothing after it. */
  function DecodeLiteral(lit: string): Option<Value> {
    match ParseLiteral(lit)
    case Some((v, rest)) => if rest == "" then Some(v) else None
    case None => None
  }

  /** A non-empty list of literals separated by ", ". */
  function ParseValueList(s: string): Option<seq<Value>>
    decreases |s|
  {
    match ParseLiteral(s)
    case None => None
    case Some((v, rest)) =>
      if rest == "" then Some([v])
      else if StartsWith(rest, ", ") then
        match ParseValueList(rest[2..])
        case Some(vs) => Some([v] + vs)
        case None => None
      else None
  }

  /** The values of a `VALUES (...)` list; the empty text is the empty list. */
  function ParseValues(s: string): Option<seq<Value>> {
    if s == "" then Some([]) else ParseValueList(s)
  }

  /** What may follow a literal inside a value list. */
  predicate Delimits(rest: string) {
    |rest| == 0 || rest[0] == ','
  }

  // ---------------------------------------------------------------------------
  // Round trips

  lemma {:induction false} DigitRunOf(digits: string, rest: string)
    requires AllDigits(digits)
    requires |rest| == 0 || !IsDigit(rest[0])
    ensures DigitRun(digits + rest) == |digits|
    decreases |digits|
  {
    if |digits| > 0 {
      assert (digits + rest)[1..] == digits[1..] + rest;
      DigitRunOf(digits[1..], rest);
    } else {
      assert digits + rest == rest;
    }
  }

  lemma DigitsRoundTrip(m: nat, rest: string)
    requires Delimits(rest)
    ensures var body := DigitsOf(m) + rest;
      && DigitRun(body) == |DigitsOf(m)|
      && DigitsValue(body[..|DigitsOf(m)|]) == m
      && body[|DigitsOf(m)|..] == rest
  {
    var digits := DigitsOf(m);
    DigitRunOf(digits, rest);
    DigitsValueOf(m);
    assert (digits + rest)[..|digits|] == digits;
  }

  lemma NegativeRoundTrip(m: nat, rest: string)
    requires m > 0 && Delimits(rest)
    ensures ParseInteger("-" + DigitsOf(m) + rest) == Some((-(m as int), rest))
  {
    var body := DigitsOf(m) + rest;
    Associative("-", DigitsOf(m), rest);
    DigitsRoundTrip(m, rest);
    ParseNegative(body, |DigitsOf(m)|);
  }

  /** A minus sign followed by a run of digits parses as the negated digits. */
  lemma ParseNegative(body: string, n: nat)
    requires n > 0 && DigitRun(body) == n
    ensures ParseInteger("-" + body) == Some((-(DigitsValue(body[..n]) as int), body[n..]))
  {
    var s := "-" + body;
    assert s[0] == '-' && s[1..] == body;
  }

  lemma NonNegativeRoundTrip(m: nat, rest: string)
    requires Delimits(rest)
    ensures ParseInteger(DigitsOf(m) + rest) == Some((m, rest))
  {
    var s := DigitsOf(m) + rest;
    assert s[0] == DigitsOf(m)[0] && s[0] != '-';
    DigitsRoundTrip(m, rest);
  }

  lemma IntegerRoundTrip(n: int, rest: string)
    requires Delimits(rest)
    ensures ParseInteger(DecimalText(n) + rest) == Some((n, rest))
  {
    if n < 0 {
      var m: nat := -n;
      assert DecimalText(n) == "-" + DigitsOf(m);
      NegativeRoundTrip(m, rest);
    } else {
      assert DecimalText(n) == DigitsOf(n);
      NonNegativeRoundTrip(n, rest);
    }
  }

  /** One step of `ParseQuoted` over a doubled quote. */
  lemma ParseQuotedDoubled(tail: string, x: string, rest: string)
    requires ParseQuoted(tail) == Some((x, rest))
    ensures ParseQuoted("''" + tail) == Some(("'" + x, rest))
  {
    var s := "''" + tail;
    assert s[0] == '\'' && s[1] == '\'' && s[2..] == tail;
  }

  /** One step of `ParseQuoted` over an ordinary character. */
  lemma ParseQuotedPlain(c: char, tail: string, x: string, rest: string)
    requires c != '\'' && ParseQuoted(tail) == Some((x, rest))
    ensures ParseQuoted([c] + tail) == Some(([c] + x, rest))
  {
    var s := [c] + tail;
    assert s[0] == c && s[1..] == tail;
  }

  /** After the opening quote, the doubled text and a closing quote parse back to the text. */
  lemma {:induction false} QuotedRoundTrip(t: string, rest: string)
    requires |rest| == 0 || rest[0] != '\''
    ensures ParseQuoted(EscapeQuotes(t) + "'" + rest) == Some((t, rest))
    decreases |t|
  {
    if |t| == 0 {
      var s := EscapeQuotes(t) + "'" + rest;
      assert s == "'" + rest;
      assert s[1..] == rest;
    } else {
      QuotedRoundTrip(t[1..], rest);
      var e := EscapeQuotes(t[1..]);
      var tail := e + "'" + rest;
      var head := if t[0] == '\'' then "''" else [t[0]];
      assert EscapeQuotes(t) == head + e;
      Associative(head, e, "'");
      Associative(head, e + "'", rest);
      assert EscapeQuotes(t) + "'" + rest == head + tail;
      if t[0] == '\'' {
        ParseQuotedDoubled(tail, t[1..], rest);
        assert "'" + t[1..] == t;
      } else {
        ParseQuotedPlain(t[0], tail, t[1..], rest);
        assert [t[0]] + t[1..] == t;
      }
    }
  }

  /** `NULL` followed by a delimiter parses back to null. */
  lemma NullLiteralRoundTrip(rest: string)
    requires Delimits(rest)
    ensures ParseLiteral(EncodeValue(Null) + rest) == Some((Null, rest))
  {
    var s := EncodeValue(Null) + rest;
    assert s[..4] == "NULL" && s[4..] == rest;
  }

  /** An integer literal followed by a delimiter parses back to the integer. */
  lemma IntLiteralRoundTrip(n: int, rest: string)
    requires Delimits(rest)
    ensures ParseLiteral(DecimalText(n) + rest) == Some((Int(n), rest))
  {
    var s := DecimalText(n) + rest;
    assert !StartsWith(s, "NULL") by { assert s[0] == DecimalText(n)[0]; }
    assert s[0] != '\'' by { assert s[0] == DecimalText(n)[0]; }
    IntegerRoundTrip(n, rest);
  }

  /** A text starting with a quote parses as a quoted string. */
  lemma ParseLiteralQuoted(body: string, x: string, rest: string)
    requires ParseQuoted(body) == Some((x, rest))
    ensures ParseLiteral("'" + body) == Some((Str(x), rest))
  {
    var s := "'" + body;
    assert s[0] == '\'' && s[1..] == body;
    assert !StartsWith(s, "NULL") by {
      if |s| >= 4 {
        assert s[..4][0] == s[0];
      }
    }
  }

  /** A string literal followed by a delimiter parses back to the string. */
  lemma StrLiteralRoundTrip(t: string, rest: string)
    requires Delimits(rest)
    ensures ParseLiteral(EncodeValue(Str(t)) + rest) == Some((Str(t), rest))
  {
    var body := EscapeQuotes(t) + "'" + rest;
    assert EncodeValue(Str(t)) == "'" + EscapeQuotes(t) + "'";
    Associative("'" + EscapeQuotes(t), "'", rest);
    Associative("'", EscapeQuotes(t), "'" + rest);
    Associative(EscapeQuotes(t), "'", rest);
    assert EncodeValue(Str(t)) + rest == "'" + body;
    QuotedRoundTrip(t, rest);
    ParseLiteralQuoted(body, t, rest);
  }

  /** A literal followed by a delimiter parses back to its value (booleans as 1 and 0). */
  lemma LiteralRoundTrip(v: Value, rest: string)
    requires Delimits(rest)
    ensures ParseLiteral(EncodeValue(v) + rest) == Some((Normalize(v), rest))
  {
    match v
    case Null => NullLiteralRoundTrip(rest);
    case Int(n) => IntLiteralRoundTrip(n, rest);
    case Bool(b) => IntLiteralRoundTrip(if b then 1 else 0, rest);
    case Str(t) => StrLiteralRoundTrip(t, rest);
  }

  /**
   * Decoding an encoded value gives the value back, except that a boolean comes
   * back as 1 or 0: stripping the outer quotes of a string literal and
   * collapsing each `''` recovers the string.
   */
  lemma DecodeEncode(v: Value)
    ensures DecodeLiteral(EncodeValue(v)) == Some(Normalize(v))
  {
    LiteralRoundTrip(v, "");
    assert EncodeValue(v) + "" == EncodeValue(v);
  }

  /** A list of two or more values encodes as its first literal, ", ", and the rest. */
  lemma EncodeValuesCons(vals: seq<Value>)
    requires |vals| > 1
    ensures EncodeValues(vals) == EncodeValue(vals[0]) + (", " + EncodeValues(vals[1..]))
    ensures EncodeValues(vals[1..]) != ""
  {
    var head := EncodeValue(vals[0]);
    assert EncodeAll(vals) == [head] + EncodeAll(vals[1..]);
    JoinCons(head, EncodeAll(vals[1..]), ", ");
    Associative(head, ", ", EncodeValues(vals[1..]));
    assert EncodeAll(vals[1..])[0] == EncodeValue(vals[1]);
    JoinFirst(EncodeAll(vals[1..]), ", ");
  }

  /** One step of `ParseValueList` over a literal followed by ", " and a non-empty list. */
  lemma ParseValueListCons(s: string, v: Value, tail: string, vs: seq<Value>)
    requires ParseLiteral(s) == Some((v, ", " + tail))
    requires ParseValueList(tail) == Some(vs)
    ensures ParseValueList(s) == Some([v] + vs)
  {
    var rest := ", " + tail;
    assert rest != "" && StartsWith(rest, ", ") && rest[2..] == tail;
  }

  /** A single value encodes as its literal alone and parses back. */
  lemma ValuesSingle(v: Value)
    ensures ParseValues(EncodeValues([v])) == Some([Normalize(v)])
  {
    LiteralRoundTrip(v, "");
    assert EncodeValue(v) + "" == EncodeValue(v);
    assert NormalizeAll([v]) == [Normalize(v)];
  }

  /** The `VALUES` list of a row parses back to the row's values, in order and of the same count. */
  lemma {:induction false} ValuesRoundTrip(vals: seq<Value>)
    ensures ParseValues(EncodeValues(vals)) == Some(NormalizeAll(vals))
    decreases |vals|
  {
    if |vals| == 1 {
      var v := vals[0];
      assert vals == [v];
      ValuesSingle(v);
      assert NormalizeAll(vals) == [Normalize(v)];
    } else if |vals| > 1 {
      var tail := EncodeValues(vals[1..]);
      EncodeValuesCons(vals);
      ValuesRoundTrip(vals[1..]);
      LiteralRoundTrip(vals[0], ", " + tail);
      ParseValueListCons(EncodeValues(vals), Normalize(vals[0]), tail, NormalizeAll(vals[1..]));
      assert NormalizeAll(vals) == [Normalize(vals[0])] + NormalizeAll(vals[1..]);
    }
  }

  // ---------------------------------------------------------------------------
  // INSERT lines

  /** A row: its columns and values in `Object.keys` / `Object.values` order. */
  type Row = seq<(string, Value)>

  function Columns(row: Row): (r: seq<string>)
    ensures |r| == |row| && forall i :: 0 <= i < |row| ==> r[i] == row[i].0
  {
    seq(|row|, i requires 0 <= i < |row| => row[i].0)
  }

  function Values(row: Row): (r: seq<Value>)
    ensures |r| == |row| && forall i :: 0 <= i < |row| ==> r[i] == row[i].1
  {
    seq(|row|, i requires 0 <= i < |row| => row[i].1)
  }

  /** Each column name wrapped in double quotes. */
  function QuoteIdents(cols: seq<string>): (r: seq<string>)
    ensures |r| == |cols| && forall i :: 0 <= i < |cols| ==> r[i] == "\"" + cols[i] + "\""
  {
    seq(|cols|, i requires 0 <= i < |cols| => "\"" + cols[i] + "\"")
  }

  /** The part of an `INSERT` line before its value list. */
  function InsertHead(table: string, row: Row): string {
    "INSERT INTO \"" + table + "\" (" + Join(QuoteIdents(Columns(row)), ", ") + ") VALUES ("
  }

  /** `` `INSERT INTO "${table.name}" (${columns}) VALUES (${values});\n` ``. */
  function InsertLine(table: string, row: Row): string {
    InsertHead(table, row) + EncodeValues(Values(row)) + ");\n"
  }

  /**
   * The value list of an `INSERT` line reads back as the row's values (booleans
   * as 1 and 0), one per column and in column order.
   */
  lemma InsertLineValues(table: string, row: Row)
    ensures InsertLine(table, row) == InsertHead(table, row) + EncodeValues(Values(row)) + ");\n"
    ensures ParseValues(EncodeValues(Values(row))).Some?
    ensures var vals := ParseValues(EncodeValues(Values(row))).value;
      |vals| == |Columns(row)| && forall i :: 0 <= i < |row| ==> vals[i] == Normalize(row[i].1)
  {
    ValuesRoundTrip(Values(row));
  }

  /** An `INSERT` line names its table first and ends the statement and the line. */
  lemma InsertLineFrame(table: string, row: Row)
    ensures StartsWith(InsertLine(table, row), "INSERT INTO \"" + table + "\" (")
    ensures EndsWith(InsertLine(table, row), ");\n")
  {
    var prefix := "INSERT INTO \"" + table + "\" (";
    var middle := Join(QuoteIdents(Columns(row)), ", ") + ") VALUES (" + EncodeValues(Values(row));
    var line := InsertLine(table, row);
    assert line == prefix + middle + ");\n";
    assert line[..|prefix|] == prefix;
    assert line[|line| - 3..] == ");\n";
  }

  // ---------------------------------------------------------------------------
  // The two scripts

  /**
   * A table of the schema catalogue: its name, its `sql` statement (null for
   * some internal tables), and the rows its `SELECT *` returned (`None` when
   * that query failed).
   */
  datatype Table = Table(name: string, sql: Option<string>, rows: Option<seq<Row>>)

  /** `if (table.sql) { ... += table.sql + ';\n\n' }`. */
  function SchemaPart(t: Table): (r: string)
    ensures r == "" <==> t.sql.None? || t.sql.value == ""
    ensures r != "" ==> StartsWith(r, t.sql.value) && EndsWith(r, ";\n\n")
  {
    if t.sql.Some? && t.sql.value != "" then t.sql.value + ";\n\n" else ""
  }

  /** The `INSERT` lines of `rows`, in order. */
  function InsertLines(table: string, rows: seq<Row>): (r: string)
    ensures r == "" <==> |rows| == 0
    ensures |rows| > 0 ==> EndsWith(r, ");\n")
    decreases |rows|
  {
    if |rows| == 0 then ""
    else
      var line := InsertLine(table, rows[|rows| - 1]);
      InsertLineFrame(table, rows[|rows| - 1]);
      EndsWithAfter(InsertLines(table, rows[..|rows| - 1]), line, ");\n");
      InsertLines(table, rows[..|rows| - 1]) + line
  }

  /** What a table's row callback appends: its `INSERT` lines and a blank line, or nothing. */
  function DataPart(t: Table): (r: string)
    ensures r == "" <==> t.rows.None? || |t.rows.value| == 0
  {
    match t.rows
    case None => ""
    case Some(rows) => if |rows| == 0 then "" else InsertLines(t.name, rows) + "\n"
  }

  /** The schema statements of the tables, in catalogue order. */
  function SchemaText(tables: seq<Table>): string
    decreases |tables|
  {
    if |tables| == 0 then "" else SchemaText(tables[..|tables| - 1]) + SchemaPart(tables[|tables| - 1])
  }

  /** The row data of the tables, in the order their queries complete. */
  function DataText(tables: seq<Table>): string
    decreases |tables|
  {
    if |tables| == 0 then "" else DataText(tables[..|tables| - 1]) + DataPart(tables[|tables| - 1])
  }

  /** A table without rows (or whose query failed) adds no `INSERT` line and no blank line. */
  lemma NoRowsNoData(tables: seq<Table>, t: Table)
    requires t.rows.None? || t.rows.value == []
    ensures DataText(tables + [t]) == DataText(tables)
  {
    assert (tables + [t])[..|tables|] == tables;
  }

  /** A table with rows contributes its `INSERT` lines followed by one blank line. */
  lemma DataPartEndsWithBlankLine(t: Table)
    requires t.rows.Some? && |t.rows.value| > 0
    ensures EndsWith(DataPart(t), ");\n\n")
  {
    var all := InsertLines(t.name, t.rows.value);
    EndsWithExtended(all, ");\n", "\n");
    assert ");\n" + "\n" == ");\n\n";
  }

  /** The schema script depends on the tables' statements only, never on their rows. */
  lemma {:induction false} SchemaIgnoresRows(tables: seq<Table>, others: seq<Table>)
    requires |tables| == |others|
    requires forall i :: 0 <= i < |tables| ==> tables[i].sql == others[i].sql
    ensures SchemaText(tables) == SchemaText(others)
    decreases |tables|
  {
    if |tables| > 0 {
      SchemaIgnoresRows(tables[..|tables| - 1], others[..|others| - 1]);
    }
  }

  lemma Associative(a: string, b: string, c: string)
    ensures a + b + c == a + (b + c)
  {
  }

  lemma SchemaTextStep(tables: seq<Table>, i: nat)
    requires i < |tables|
    ensures SchemaText(tables[..i + 1]) == SchemaText(tables[..i]) + SchemaPart(tables[i])
  {
    assert tables[..i + 1][..i] == tables[..i];
  }

  lemma DataTextStep(tables: seq<Table>, j: nat)
    requires j < |tables|
    ensures DataText(tables[..j + 1]) == DataText(tables[..j]) + DataPart(tables[j])
  {
    assert tables[..j + 1][..j] == tables[..j];
  }

  lemma InsertLinesStep(name: string, rows: seq<Row>, k: nat)
    requires k < |rows|
    ensures InsertLines(name, rows[..k + 1]) == InsertLines(name, rows[..k]) + InsertLine(name, rows[k])
  {
    assert rows[..k + 1][..k] == rows[..k];
  }

  /** `rows.forEach(row => { fullDump += ... })`: the `INSERT` lines appended to `dump`. */
  method AppendInserts(dump: string, name: string, rows: seq<Row>) returns (r: string)
    ensures r == dump + InsertLines(name, rows)
  {
    r := dump;
    var k := 0;
    while k < |rows|
      invariant 0 <= k <= |rows|
      invariant r == dump + InsertLines(name, rows[..k])
    {
      InsertLinesStep(name, rows, k);
      Associative(dump, InsertLines(name, rows[..k]), InsertLine(name, rows[k]));
      r := r + InsertLine(name, rows[k]);
      k := k + 1;
    }
    assert rows[..k] == rows;
  }

  /** `tables.forEach(...)`: each non-empty schema statement is appended to both scripts. */
  method AppendSchema(tables: seq<Table>) returns (schemaSql: string, fullDump: string)
    ensures schemaSql == SchemaText(tables) && fullDump == schemaSql
  {
    schemaSql, fullDump := "", "";
    var i := 0;
    while i < |tables|
      invariant 0 <= i <= |tables|
      invariant schemaSql == SchemaText(tables[..i]) && fullDump == schemaSql
    {
      var table := tables[i];
      SchemaTextStep(tables, i);
      if table.sql.Some? && table.sql.value != "" {
        schemaSql := schemaSql + (table.sql.value + ";\n\n");
        fullDump := fullDump + (table.sql.value + ";\n\n");
      }
      i := i + 1;
    }
    assert tables[..i] == tables;
  }

  /** One row callback: a table with rows appends its `INSERT` lines and a blank line. */
  method AppendTableData(dump: string, table: Table) returns (r: string)
    ensures r == dump + DataPart(table)
  {
    r := dump;
    if table.rows.Some? && |table.rows.value| > 0 {
      r := AppendInserts(r, table.name, table.rows.value);
      r := r + "\n";
      Associative(dump, InsertLines(table.name, table.rows.value), "\n");
    }
  }

  /** The row callbacks, completing in the order their queries were issued. */
  method AppendData(dump: string, tables: seq<Table>) returns (r: string)
    ensures r == dump + DataText(tables)
  {
    r := dump;
    var j := 0;
    while j < |tables|
      invariant 0 <= j <= |tables|
      invariant r == dump + DataText(tables[..j])
    {
      DataTextStep(tables, j);
      Associative(dump, DataText(tables[..j]), DataPart(tables[j]));
      r := AppendTableData(r, tables[j]);
      j := j + 1;
    }
    assert tables[..j] == tables;
  }

  /**
   * The export: the schema statement of each table is appended to both scripts
   * while the tables are listed; each row query's callback then appends that
   * table's `INSERT` lines to the full dump only. The callbacks are taken to
   * complete in the order the queries were issued.
   */
  method Dump(tables: seq<Table>) returns (schemaSql: string, fullDump: string)
    ensures schemaSql == SchemaText(tables)
    ensures fullDump == schemaSql + DataText(tables)
  {
    schemaSql, fullDump := AppendSchema(tables);
    fullDump := AppendData(fullDump, tables);
  }
}

=== FILE: keys.dfy ===
/** Primary keys shared by the collections of the platform. */
module Keys {
  /** The primary key of a meme or a user; "" stands for a missing (falsy) value. */
  type Key = string
}

=== FILE: like_manager.dfy ===
/**
 * The like manager: the `/toggle` handler, which adds or removes the caller's
 * like row for a meme and moves the meme's `likes` counter with it, and the
 * read-only `/status/:meme_id` query.
 */
module LikeManager {
  import opened Wrappers
  import opened Keys

  /** A row of `memes_likes`. */
  datatype LikeRow = LikeRow(id: nat, meme: Key, user: Key)

  datatype Action = Liked | Unliked

  /** The JSON body of a `/toggle` response. */
  datatype ToggleResponse =
    | BadRequest(error: string)
    | Toggled(action: Action, message: string, memeId: Key, userId: Key, likesCount: int, userHasLiked: bool)

  /** The JSON body of a `/status/:meme_id` response. */
  datatype StatusResponse =
    | Unauthorized(error: string)
    | LikeStatus(memeId: Key, userHasLiked: bool, totalLikes: int)

  /** The two collections the handler writes: the like rows in store order, and each meme's counter. */
  datatype LikeState = LikeState(rows: seq<LikeRow>, likes: map<Key, int>, nextId: nat)

  /** A meme's `likes` counter; a meme without one reads as 0. */
  function LikesOf(likes: map<Key, int>, meme: Key): int {
    if meme in likes then likes[meme] else 0
  }

  predicate Matches(row: LikeRow, meme: Key, user: Key) {
    row.meme == meme && row.user == user
  }

  /** The position of the first row for (meme, user): `existingLikes[0]`. */
  function FirstLike(rows: seq<LikeRow>, meme: Key, user: Key): (r: Option<nat>)
    ensures r.Some? ==> r.value < |rows| && Matches(rows[r.value], meme, user)
    ensures r.Some? ==> forall i :: 0 <= i < r.value ==> !Matches(rows[i], meme, user)
    ensures r.None? ==> forall i :: 0 <= i < |rows| ==> !Matches(rows[i], meme, user)
  {
    if |rows| == 0 then None
    else if Matches(rows[0], meme, user) then Some(0)
    else
      match FirstLike(rows[1..], meme, user)
      case None => None
      case Some(i) => Some(i + 1)
  }

  /** Number of like rows for `meme`. */
  function RowCount(rows: seq<LikeRow>, meme: Key): (n: nat)
    ensures n <= |rows|
  {
    if |rows| == 0 then 0
    else (if rows[0].meme == meme then 1 else 0) + RowCount(rows[1..], meme)
  }

  /** Number of like rows for the pair (meme, user). */
  function PairCount(rows: seq<LikeRow>, meme: Key, user: Key): (n: nat)
    ensures n == 0 <==> FirstLike(rows, meme, user).None?
  {
    if |rows| == 0 then 0
    else (if Matches(rows[0], meme, user) then 1 else 0) + PairCount(rows[1..], meme, user)
  }

  /** The rows that do not belong to (meme, user), in order. */
  function OtherRows(rows: seq<LikeRow>, meme: Key, user: Key): (r: seq<LikeRow>)
    ensures forall i :: 0 <= i < |r| ==> !Matches(r[i], meme, user)
  {
    if |rows| == 0 then []
    else (if Matches(rows[0], meme, user) then [] else [rows[0]]) + OtherRows(rows[1..], meme, user)
  }

  /** The (meme, user) pairs of the rows, ignoring row ids. */
  function Pairs(rows: seq<LikeRow>): (r: seq<(Key, Key)>)
    ensures |r| == |rows|
  {
    if |rows| == 0 then [] else [(rows[0].meme, rows[0].user)] + Pairs(rows[1..])
  }

  /** The counter of every meme equals the number of like rows for it. */
  ghost predicate CountersMatch(s: LikeState) {
    forall m :: LikesOf(s.likes, m) == RowCount(s.rows, m)
  }

  /** At most one like row per (meme, user) pair. */
  ghost predicate UniquePairs(rows: seq<LikeRow>) {
    forall m, u :: PairCount(rows, m, u) <= 1
  }

  /** Every row id was handed out before `nextId`. */
  ghost predicate IdsBelow(s: LikeState) {
    forall i :: 0 <= i < |s.rows| ==> s.rows[i].id < s.nextId
  }

  /** Row ids grow with store order, so no two rows share an id. */
  ghost predicate IdsIncreasing(rows: seq<LikeRow>) {
    forall i, j :: 0 <= i < j < |rows| ==> rows[i].id < rows[j].id
  }

  const MissingIds := "meme_id et user_id requis"
  const LikedMessage := "Meme liké avec succès"
  const UnlikedMessage := "Like retiré avec succès"
  const AuthRequired := "Authentification requise"

  /**
   * The `/toggle` handler: reject when an id is missing; otherwise delete the
   * first row for (meme, user) and decrement the counter, or create a row and
   * increment the counter.
   */
  function Toggle(s: LikeState, meme: Key, user: Key): (r: (LikeState, ToggleResponse))
    ensures meme == "" || user == "" ==> r.0 == s && r.1 == BadRequest(MissingIds)
    ensures meme != "" && user != "" ==>
      var (t, resp) := r;
      && resp.Toggled?
      && resp.memeId == meme && resp.userId == user
      && (resp.userHasLiked <==> resp.action == Liked)
      && resp.likesCount == LikesOf(t.likes, meme)
      && (resp.action == Unliked <==> FirstLike(s.rows, meme, user).Some?)
      && (resp.action == Unliked ==>
            var i := FirstLike(s.rows, meme, user).value;
            t.rows == s.rows[..i] + s.rows[i + 1..] && LikesOf(t.likes, meme) == LikesOf(s.likes, meme) - 1
            && t.nextId == s.nextId)
      && (resp.action == Liked ==>
            t.rows == s.rows + [LikeRow(s.nextId, meme, user)] && LikesOf(t.likes, meme) == LikesOf(s.likes, meme) + 1
            && t.nextId == s.nextId + 1)
      && (forall m :: m != meme ==> LikesOf(t.likes, m) == LikesOf(s.likes, m))
  {
    if meme == "" || user == "" then (s, BadRequest(MissingIds))
    else
      match FirstLike(s.rows, meme, user)
      case Some(i) =>
        var likes := s.likes[meme := LikesOf(s.likes, meme) - 1];
        (s.(rows := s.rows[..i] + s.rows[i + 1..], likes := likes),
         Toggled(Unliked, UnlikedMessage, meme, user, LikesOf(likes, meme), false))
      case None =>
        var likes := s.likes[meme := LikesOf(s.likes, meme) + 1];
        (LikeState(s.rows + [LikeRow(s.nextId, meme, user)], likes, s.nextId + 1),
         Toggled(Liked, LikedMessage, meme, user, LikesOf(likes, meme), true))
  }

  // ---------------------------------------------------------------------------
  // Counting lemmas

  lemma {:induction false} RowCountAppend(a: seq<LikeRow>, b: seq<LikeRow>, m: Key)
    ensures RowCount(a + b, m) == RowCount(a, m) + RowCount(b, m)
    decreases |a|
  {
    if |a| == 0 {
      assert a + b == b;
    } else {
      assert (a + b)[1..] == a[1..] + b;
      RowCountAppend(a[1..], b, m);
    }
  }

  lemma {:induction false} PairCountAppend(a: seq<LikeRow>, b: seq<LikeRow>, m: Key, u: Key)
    ensures PairCount(a + b, m, u) == PairCount(a, m, u) + PairCount(b, m, u)
    decreases |a|
  {
    if |a| == 0 {
      assert a + b == b;
    } else {
      assert (a + b)[1..] == a[1..] + b;
      PairCountAppend(a[1..], b, m, u);
    }
  }

  lemma {:induction false} OtherRowsAppend(a: seq<LikeRow>, b: seq<LikeRow>, m: Key, u: Key)
    ensures OtherRows(a + b, m, u) == OtherRows(a, m, u) + OtherRows(b, m, u)
    decreases |a|
  {
    if |a| == 0 {
      assert a + b == b;
    } else {
      assert (a + b)[1..] == a[1..] + b;
      OtherRowsAppend(a[1..], b, m, u);
    }
  }

  lemma {:induction false} PairsAppend(a: seq<LikeRow>, b: seq<LikeRow>)
    ensures Pairs(a + b) == Pairs(a) + Pairs(b)
    decreases |a|
  {
    if |a| == 0 {
      assert a + b == b;
    } else {
      assert (a + b)[1..] == a[1..] + b;
      PairsAppend(a[1..], b);
    }
  }

  lemma Single(row: LikeRow, m: Key, u: Key)
    ensures RowCount([row], m) == (if row.meme == m then 1 else 0)
    ensures PairCount([row], m, u) == (if Matches(row, m, u) then 1 else 0)
    ensures OtherRows([row], m, u) == (if Matches(row, m, u) then [] else [row])
    ensures Pairs([row]) == [(row.meme, row.user)]
  {
    assert [row][1..] == [];
  }

  /** Splitting the rows around position `i`. */
  lemma Around(rows: seq<LikeRow>, i: nat)
    requires i < |rows|
    ensures rows == rows[..i] + [rows[i]] + rows[i + 1..]
  {
  }

  // ---------------------------------------------------------------------------
  // What a toggle preserves

  /** A toggle leaves the rows of every other (meme, user) pair as they were, in order. */
  lemma ToggleKeepsOtherRows(s: LikeState, meme: Key, user: Key)
    ensures OtherRows(Toggle(s, meme, user).0.rows, meme, user) == OtherRows(s.rows, meme, user)
  {
    if meme != "" && user != "" {
      match FirstLike(s.rows, meme, user)
      case Some(i) =>
        Around(s.rows, i);
        OtherRowsAppend(s.rows[..i] + [s.rows[i]], s.rows[i + 1..], meme, user);
        OtherRowsAppend(s.rows[..i], [s.rows[i]], meme, user);
        OtherRowsAppend(s.rows[..i], s.rows[i + 1..], meme, user);
        Single(s.rows[i], meme, user);
      case None =>
        OtherRowsAppend(s.rows, [LikeRow(s.nextId, meme, user)], meme, user);
        Single(LikeRow(s.nextId, meme, user), meme, user);
    }
  }

  /** If every counter matches its rows before a toggle, every counter matches afterwards. */
  lemma ToggleKeepsCountersMatching(s: LikeState, meme: Key, user: Key)
    requires CountersMatch(s)
    ensures CountersMatch(Toggle(s, meme, user).0)
  {
    var t := Toggle(s, meme, user).0;
    if meme != "" && user != "" {
      match FirstLike(s.rows, meme, user)
      case Some(i) =>
        forall m ensures LikesOf(t.likes, m) == RowCount(t.rows, m) {
          Around(s.rows, i);
          RowCountAppend(s.rows[..i] + [s.rows[i]], s.rows[i + 1..], m);
          RowCountAppend(s.rows[..i], [s.rows[i]], m);
          RowCountAppend(s.rows[..i], s.rows[i + 1..], m);
          Single(s.rows[i], m, user);
        }
      case None =>
        forall m ensures LikesOf(t.likes, m) == RowCount(t.rows, m) {
          RowCountAppend(s.rows, [LikeRow(s.nextId, meme, user)], m);
          Single(LikeRow(s.nextId, meme, user), m, user);
        }
    }
  }

  /** A toggle keeps row ids below the next id to hand out. */
  lemma ToggleKeepsIdsBelow(s: LikeState, meme: Key, user: Key)
    requires IdsBelow(s)
    ensures IdsBelow(Toggle(s, meme, user).0)
  {
  }

  /**
   * Rows are created with the next id and deleted in place, so ids keep growing
   * along the store order: deleting a like by its position and by its id agree.
   */
  lemma ToggleKeepsIdsIncreasing(s: LikeState, meme: Key, user: Key)
    requires IdsIncreasing(s.rows) && IdsBelow(s)
    ensures IdsIncreasing(Toggle(s, meme, user).0.rows)
  {
    var t := Toggle(s, meme, user).0;
    if meme != "" && user != "" {
      match FirstLike(s.rows, meme, user)
      case Some(k) =>
        assert t.rows == s.rows[..k] + s.rows[k + 1..];
        forall i, j | 0 <= i < j < |t.rows|
          ensures t.rows[i].id < t.rows[j].id
        {
          var i' := if i < k then i else i + 1;
          var j' := if j < k then j else j + 1;
          assert t.rows[i] == s.rows[i'] && t.rows[j] == s.rows[j'];
        }
      case None =>
        assert t.rows == s.rows + [LikeRow(s.nextId, meme, user)];
        forall i, j | 0 <= i < j < |t.rows|
          ensures t.rows[i].id < t.rows[j].id
        {
          if j == |s.rows| {
            assert t.rows[i] == s.rows[i];
          } else {
            assert t.rows[i] == s.rows[i] && t.rows[j] == s.rows[j];
          }
        }
    }
  }

  /** From at most one row per pair, a toggle keeps at most one row per pair. */
  lemma ToggleKeepsUniquePairs(s: LikeState, meme: Key, user: Key)
    requires UniquePairs(s.rows)
    ensures UniquePairs(Toggle(s, meme, user).0.rows)
  {
    var t := Toggle(s, meme, user).0;
    if meme != "" && user != "" {
      match FirstLike(s.rows, meme, user)
      case Some(i) =>
        forall m, u ensures PairCount(t.rows, m, u) <= 1 {
          Around(s.rows, i);
          PairCountAppend(s.rows[..i] + [s.rows[i]], s.rows[i + 1..], m, u);
          PairCountAppend(s.rows[..i], [s.rows[i]], m, u);
          PairCountAppend(s.rows[..i], s.rows[i + 1..], m, u);
          Single(s.rows[i], m, u);
        }
      case None =>
        forall m, u ensures PairCount(t.rows, m, u) <= 1 {
          PairCountAppend(s.rows, [LikeRow(s.nextId, meme, user)], m, u);
          Single(LikeRow(s.nextId, meme, user), m, u);
        }
    }
  }

  /** Toggling twice from "not liked": the like row is added, then removed again. */
  lemma ToggleTwiceFromUnliked(s: LikeState, meme: Key, user: Key)
    requires meme != "" && user != "" && FirstLike(s.rows, meme, user).None?
    ensures var t := Toggle(Toggle(s, meme, user).0, meme, user).0;
      t.rows == s.rows && LikesOf(t.likes, meme) == LikesOf(s.likes, meme)
  {
    var s1 := Toggle(s, meme, user).0;
    var row := LikeRow(s.nextId, meme, user);
    assert s1.rows == s.rows + [row];
    assert FirstLike(s1.rows, meme, user) == Some(|s.rows|) by {
      assert s1.rows[|s.rows|] == row;
      assert forall j :: 0 <= j < |s.rows| ==> s1.rows[j] == s.rows[j];
    }
    assert s1.rows[..|s.rows|] == s.rows && s1.rows[|s.rows| + 1..] == [];
  }

  /** Toggling twice from "liked" (one row for the pair): the row is removed, then a new one is appended. */
  lemma ToggleTwiceFromLiked(s: LikeState, meme: Key, user: Key)
    requires meme != "" && user != "" && FirstLike(s.rows, meme, user).Some?
    requires PairCount(s.rows, meme, user) <= 1
    ensures var t := Toggle(Toggle(s, meme, user).0, meme, user).0;
      multiset(Pairs(t.rows)) == multiset(Pairs(s.rows)) && LikesOf(t.likes, meme) == LikesOf(s.likes, meme)
  {
    var i := FirstLike(s.rows, meme, user).value;
    var s1 := Toggle(s, meme, user).0;
    var rest := s.rows[..i] + s.rows[i + 1..];
    assert s1.rows == rest;
    Around(s.rows, i);
    PairCountAppend(s.rows[..i] + [s.rows[i]], s.rows[i + 1..], meme, user);
    PairCountAppend(s.rows[..i], [s.rows[i]], meme, user);
    PairCountAppend(s.rows[..i], s.rows[i + 1..], meme, user);
    Single(s.rows[i], meme, user);
    assert PairCount(rest, meme, user) == 0;
    var added := LikeRow(s1.nextId, meme, user);
    var t := Toggle(s1, meme, user).0;
    assert t.rows == rest + [added];
    PairsAppend(rest, [added]);
    PairsAppend(s.rows[..i] + [s.rows[i]], s.rows[i + 1..]);
    PairsAppend(s.rows[..i], [s.rows[i]]);
    PairsAppend(s.rows[..i], s.rows[i + 1..]);
    Single(added, meme, user);
    assert Pairs([s.rows[i]]) == Pairs([added]);
  }

  /**
   * Toggling twice restores the state: every counter, and the (meme, user)
   * pairs of the rows as a multiset. When the user had not liked the meme,
   * the rows are restored exactly; when they had, the like row comes back with
   * a fresh id at the end.
   */
  lemma ToggleTwiceRestores(s: LikeState, meme: Key, user: Key)
    requires UniquePairs(s.rows)
    ensures var t := Toggle(Toggle(s, meme, user).0, meme, user).0;
      && (forall m :: LikesOf(t.likes, m) == LikesOf(s.likes, m))
      && multiset(Pairs(t.rows)) == multiset(Pairs(s.rows))
      && (FirstLike(s.rows, meme, user).None? ==> t.rows == s.rows)
  {
    if meme != "" && user != "" {
      if FirstLike(s.rows, meme, user).None? {
        ToggleTwiceFromUnliked(s, meme, user);
      } else {
        assert PairCount(s.rows, meme, user) <= 1;
        ToggleTwiceFromLiked(s, meme, user);
      }
    }
  }

  // ---------------------------------------------------------------------------
  // The handlers against the stored collections

  class LikeStore {
    var rows: seq<LikeRow>
    var likes: map<Key, int>
    var nextId: nat

    function State(): LikeState
      reads this
    {
      LikeState(rows, likes, nextId)
    }

    /** The invariant the handler is responsible for: counters match rows, one row per pair, fresh and growing ids. */
    ghost predicate Valid()
      reads this
    {
      CountersMatch(State()) && UniquePairs(rows) && IdsBelow(State()) && IdsIncreasing(rows)
    }

    constructor ()
      ensures rows == [] && likes == map[] && nextId == 0
      ensures Valid()
    {
      rows, likes, nextId := [], map[], 0;
    }

    /** `POST /toggle`. */
    method ToggleLike(meme: Key, user: Key) returns (resp: ToggleResponse)
      modifies this
      ensures (State(), resp) == Toggle(old(State()), meme, user)
      ensures old(Valid()) ==> Valid()
    {
      if old(Valid()) {
        ToggleKeepsCountersMatching(State(), meme, user);
        ToggleKeepsUniquePairs(State(), meme, user);
        ToggleKeepsIdsBelow(State(), meme, user);
        ToggleKeepsIdsIncreasing(State(), meme, user);
      }
      if meme == "" || user == "" {
        return BadRequest(MissingIds);
      }
      var existing := FirstLike(rows, meme, user);
      var action;
      if existing.Some? {
        var i := existing.value;
        rows := rows[..i] + rows[i + 1..];
        likes := likes[meme := LikesOf(likes, meme) - 1];
        action := Unliked;
      } else {
        rows := rows + [LikeRow(nextId, meme, user)];
        nextId := nextId + 1;
        likes := likes[meme := LikesOf(likes, meme) + 1];
        action := Liked;
      }
      var message := if action == Liked then LikedMessage else UnlikedMessage;
      resp := Toggled(action, message, meme, user, LikesOf(likes, meme), action == Liked);
    }

    /** `GET /status/:meme_id`: read-only. */
    method Status(meme: Key, user: Key) returns (resp: StatusResponse)
      ensures user == "" ==> resp == Unauthorized(AuthRequired)
      ensures user != "" ==> resp.LikeStatus? && resp.memeId == meme
      ensures user != "" ==> (resp.userHasLiked <==> exists i :: 0 <= i < |rows| && Matches(rows[i], meme, user))
      ensures user != "" ==> resp.totalLikes == LikesOf(likes, meme)
      ensures user != "" && Valid() ==> resp.totalLikes == RowCount(rows, meme)
    {
      if user == "" {
        return Unauthorized(AuthRequired);
      }
      var existing := FirstLike(rows, meme, user);
      resp := LikeStatus(meme, existing.Some?, LikesOf(likes, meme));
    }
  }
}

=== FILE: meilisearch_sync.dfy ===
/**
 * The search-index synchroniser: the projection of a meme to its search document
 * and the create, update and delete action hooks, which keep the index in step
 * with the memes collection.
 */
module MeilisearchSync {
  import opened Wrappers
  import opened Keys
  import opened Memes

  /** The memes collection after the triggering write: each meme is stored under its own id. */
  type Store = s: map<Key, Meme> | forall k :: k in s ==> s[k].id == k witness map[]

  /** `memesService.readOne(key)`: the meme with that primary key, if any. */
  function ReadOne(store: Store, key: Key): (r: Option<Meme>)
    ensures r.Some? <==> key in store
    ensures r.Some? ==> r.value.id == key
  {
    if key in store then Some(store[key]) else None
  }

  /**
   * `transformMemeForSearch`: no document for a missing or unpublished meme;
   * otherwise the document whose searchable text is the title and the
   * description separated by one space.
   */
  function TransformMemeForSearch(meme: Option<Meme>): (r: Option<Doc>)
    ensures r.Some? <==> meme.Some? && meme.value.status == Some(Published)
    ensures r.Some? ==> r.value.id == meme.value.id && r.value.status == Some(Published)
  {
    match meme
    case None => None
    case Some(m) =>
      if m.status != Some(Published) then None
      else Some(Doc(
        id := m.id,
        title := OrEmpty(m.title),
        searchableContent := OrEmpty(m.title) + " " + OrEmpty(m.description),
        tags := TagNames(m.tags),
        creator := CreatorName(m.userCreated),
        creatorId := CreatorId(m.userCreated),
        likes := CounterOrZero(m.likes),
        views := CounterOrZero(m.views),
        status := m.status,
        dateCreated := m.dateCreated,
        collection := Collection))
  }

  /** The document of a published meme, field by field. */
  lemma PublishedDocument(m: Meme)
    requires m.status == Some(Published)
    ensures TransformMemeForSearch(Some(m)).Some?
    ensures var d := TransformMemeForSearch(Some(m)).value;
      && d.id == m.id
      && d.title == OrEmpty(m.title)
      && d.searchableContent == OrEmpty(m.title) + " " + OrEmpty(m.description)
      && d.searchableContent[..|d.title|] == d.title
      && d.tags == TagNames(m.tags)
      && (forall i :: 0 <= i < |d.tags| ==> d.tags[i] != "")
      && d.creator == CreatorName(m.userCreated)
      && Text.Trimmed(d.creator)
      && d.creatorId == CreatorId(m.userCreated)
      && d.likes == CounterOrZero(m.likes)
      && d.views == CounterOrZero(m.views)
      && d.dateCreated == m.dateCreated
      && d.collection == "memes"
  {
  }

  /** The document, if any, that the hooks would build for `key` from the current collection. */
  function FreshDocument(store: Store, key: Key): (r: Option<Doc>)
    ensures r.Some? ==> r.value.id == key
    ensures r.Some? <==> key in store && store[key].status == Some(Published)
  {
    TransformMemeForSearch(ReadOne(store, key))
  }

  // ---------------------------------------------------------------------------
  // The three hooks as functions of the index

  /** The `memes.items.create` hook: index the new meme only when the payload and the stored meme are published. */
  function OnCreateSpec(index: Index, store: Store, key: Key, payloadStatus: Option<string>): (r: Index)
    ensures forall k :: k != key ==> (k in r <==> k in index)
    ensures forall k :: k != key && k in r ==> r[k] == index[k]
  {
    if payloadStatus == Some(Published) then
      match FreshDocument(store, key)
      case Some(d) =>
        assert Ids([d]) == {key};
        AddDocuments(index, [d])
      case None => index
    else index
  }

  /** One iteration of the `memes.items.update` hook: upsert the fresh document, or delete the key. */
  function UpdateOne(index: Index, store: Store, key: Key): (r: Index)
    ensures forall k :: k != key ==> (k in r <==> k in index)
    ensures forall k :: k != key && k in r ==> r[k] == index[k]
  {
    match FreshDocument(store, key)
    case Some(d) =>
      assert Ids([d]) == {key};
      AddDocuments(index, [d])
    case None => DeleteDocuments(index, [key])
  }

  /** The `memes.items.update` hook: the keys are processed in order; unlisted keys are left alone. */
  function OnUpdateSpec(index: Index, store: Store, keys: seq<Key>): (r: Index)
    ensures forall k :: k !in keys ==> (k in r <==> k in index)
    ensures forall k :: k !in keys && k in r ==> r[k] == index[k]
    decreases |keys|
  {
    if |keys| == 0 then index
    else
      var front := keys[..|keys| - 1];
      assert forall k :: k in front ==> k in keys;
      UpdateOne(OnUpdateSpec(index, store, front), store, keys[|keys| - 1])
  }

  /** Create adds exactly one document, under `key`, or leaves the index as it was. */
  lemma CreateOutcome(index: Index, store: Store, key: Key, payloadStatus: Option<string>)
    ensures var r := OnCreateSpec(index, store, key, payloadStatus);
      if payloadStatus == Some(Published) && FreshDocument(store, key).Some? then
        && r.Keys == index.Keys + {key}
        && r[key] == FreshDocument(store, key).value
        && (forall k :: k in index && k != key ==> r[k] == index[k])
      else r == index
  {
    if payloadStatus == Some(Published) && FreshDocument(store, key).Some? {
      var d := FreshDocument(store, key).value;
      assert Ids([d]) == {key};
      AddDocumentsLastWins(index, [d], 0);
    }
  }

  /** One update step touches only its own key. */
  lemma UpdateOneOutcome(index: Index, store: Store, key: Key)
    ensures var r := UpdateOne(index, store, key);
      && (FreshDocument(store, key).Some? ==> key in r && r[key] == FreshDocument(store, key).value)
      && (FreshDocument(store, key).None? ==> key !in r)
      && (forall k :: k != key ==> (k in r <==> k in index))
      && (forall k :: k != key && k in r ==> r[k] == index[k])
  {
    match FreshDocument(store, key)
    case Some(d) =>
      assert Ids([d]) == {key};
      AddDocumentsLastWins(index, [d], 0);
    case None =>
  }

  /**
   * After the update hook, each listed key holds its fresh document when the meme
   * is published and is absent otherwise; every other key is as it was.
   */
  lemma {:induction false} UpdateOutcome(index: Index, store: Store, keys: seq<Key>)
    ensures var r := OnUpdateSpec(index, store, keys);
      && (forall k :: k in keys && FreshDocument(store, k).Some? ==> k in r && r[k] == FreshDocument(store, k).value)
      && (forall k :: k in keys && FreshDocument(store, k).None? ==> k !in r)
      && (forall k :: k !in keys ==> (k in r <==> k in index))
      && (forall k :: k !in keys && k in r ==> r[k] == index[k])
    decreases |keys|
  {
    if |keys| > 0 {
      var front, last := keys[..|keys| - 1], keys[|keys| - 1];
      UpdateOutcome(index, store, front);
      UpdateOneOutcome(OnUpdateSpec(index, store, front), store, last);
      assert forall k :: k in keys <==> k in front || k == last by {
        assert keys == front + [last];
      }
    }
  }

  /**
   * The lifecycle of one meme: created as a draft it is not indexed; once an
   * update publishes it exactly its document appears, with the title and the
   * description as searchable text; once deleted it is gone.
   */
  lemma DraftPublishDeleteScenario(index: Index, draft: Meme, title: string, description: string)
    requires draft.status == Some("draft") && draft.id !in index
    ensures var store1: Store := map[draft.id := draft];
      var published := draft.(status := Some(Published), title := Some(title), description := Some(description));
      var store2: Store := map[draft.id := published];
      var i1 := OnCreateSpec(index, store1, draft.id, draft.status);
      var i2 := OnUpdateSpec(i1, store2, [draft.id]);
      var i3 := DeleteDocuments(i2, [draft.id]);
      && i1 == index
      && i2.Keys == index.Keys + {draft.id}
      && i2[draft.id].searchableContent == title + " " + description
      && draft.id !in i3
      && i3 == index
  {
    var published := draft.(status := Some(Published), title := Some(title), description := Some(description));
    var store2: Store := map[draft.id := published];
    PublishedDocument(published);
    var d := FreshDocument(store2, draft.id).value;
    UpdateSingle(index, store2, draft.id);
    DeleteAfterAdd(index, d);
  }

  /** Updating a single published key stores its fresh document under it. */
  lemma UpdateSingle(index: Index, store: Store, key: Key)
    requires FreshDocument(store, key).Some?
    ensures OnUpdateSpec(index, store, [key]) == index[key := FreshDocument(store, key).value]
  {
    assert [key][..0] == [];
    assert [FreshDocument(store, key).value][..0] == [];
  }

  /** Deleting a document that was just added to an index without its key restores the index. */
  lemma DeleteAfterAdd(index: Index, d: Doc)
    requires d.id !in index
    ensures DeleteDocuments(index[d.id := d], [d.id]) == index
  {
  }

  // ---------------------------------------------------------------------------
  // The hooks as they run, against the index they mutate

  /** The remote index as the hooks see it. */
  class SyncedIndex {
    var docs: Index

    constructor (initial: Index)
      ensures docs == initial
    {
      docs := initial;
    }

    /** `action('memes.items.create', ...)`. */
    method OnCreate(key: Key, payloadStatus: Option<string>, store: Store)
      modifies this
      ensures docs == OnCreateSpec(old(docs), store, key, payloadStatus)
      ensures payloadStatus != Some(Published) || FreshDocument(store, key).None? ==> docs == old(docs)
      ensures payloadStatus == Some(Published) && FreshDocument(store, key).Some? ==>
                docs == old(docs)[key := FreshDocument(store, key).value]
    {
      CreateOutcome(docs, store, key, payloadStatus);
      if payloadStatus == Some(Published) {
        var document := TransformMemeForSearch(ReadOne(store, key));
        if document.Some? {
          docs := AddDocuments(docs, [document.value]);
        }
      }
    }

    /** `action('memes.items.update', ...)`: one upsert or delete per key, in order. */
    method OnUpdate(keys: seq<Key>, store: Store)
      modifies this
      ensures docs == OnUpdateSpec(old(docs), store, keys)
      ensures forall k :: k in keys && FreshDocument(store, k).Some? ==> k in docs && docs[k] == FreshDocument(store, k).value
      ensures forall k :: k in keys && FreshDocument(store, k).None? ==> k !in docs
      ensures forall k :: k !in keys ==> (k in docs <==> k in old(docs))
      ensures forall k :: k !in keys && k in docs ==> docs[k] == old(docs)[k]
    {
      var i := 0;
      while i < |keys|
        invariant 0 <= i <= |keys|
        invariant docs == OnUpdateSpec(old(docs), store, keys[..i])
      {
        var key := keys[i];
        var document := TransformMemeForSearch(ReadOne(store, key));
        if document.Some? {
          docs := AddDocuments(docs, [document.value]);
        } else {
          docs := DeleteDocuments(docs, [key]);
        }
        assert keys[..i + 1][..i] == keys[..i];
        i := i + 1;
      }
      assert keys[..i] == keys;
      UpdateOutcome(old(docs), store, keys);
    }

    /** `action('memes.items.delete', ...)`: a batch delete, idempotent for absent keys. */
    method OnDelete(keys: seq<Key>)
      modifies this
      ensures forall k :: k in docs <==> k in old(docs) && k !in keys
      ensures forall k :: k in docs ==> docs[k] == old(docs)[k]
    {
      docs := DeleteDocuments(docs, keys);
    }
  }
}

=== FILE: memes.dfy ===
/**
 * The meme record as the platform's item service returns it (with the creator
 * and tag relations expanded), the search document built from it, and the
 * search index as a map from document id to document.
 */
module Memes {
  import opened Wrappers
  import opened Text
  import opened Keys

  /** The expanded `user_created` relation. */
  datatype User = User(id: Option<Key>, firstName: Option<string>, lastName: Option<string>)

  /** A tag as reached through the junction row (`tags.tags_id`). */
  datatype Tag = Tag(name: Option<string>)

  /** One junction row of the meme–tag relation; its `tags_id` may be null. */
  datatype TagLink = TagLink(tag: Option<Tag>)

  /**
   * A meme. `likes` and `views` hold the result of `parseInt` on the stored value
   * (`None` is `NaN`); every other absent or null field is `None`.
   */
  datatype Meme = Meme(
    id: Key,
    title: Option<string>,
    description: Option<string>,
    status: Option<string>,
    tags: Option<seq<TagLink>>,
    userCreated: Option<User>,
    likes: Option<int>,
    views: Option<int>,
    dateCreated: Option<string>)

  /** A search document; `status` is `None` where the producer omits the field. */
  datatype Doc = Doc(
    id: Key,
    title: string,
    searchableContent: string,
    tags: seq<string>,
    creator: string,
    creatorId: Option<Key>,
    likes: int,
    views: int,
    status: Option<string>,
    dateCreated: Option<string>,
    collection: string)

  /** The search index: documents by primary key. */
  type Index = map<Key, Doc>

  const Published := "published"
  const Collection := "memes"

  // ---------------------------------------------------------------------------
  // Field derivations shared by the synchroniser and the backfill

  /** `x || ''` for an optional string: null, undefined and "" all give "". */
  function OrEmpty(x: Option<string>): (r: string)
    ensures x.Some? ==> r == x.value
    ensures x.None? ==> r == ""
  {
    x.GetOr("")
  }

  /** The name of a tag link, when it is truthy (present and not ""). */
  function LinkName(link: TagLink): (r: Option<string>)
    ensures r.Some? ==> r.value != ""
    ensures r.Some? <==> link.tag.Some? && link.tag.value.name.Some? && link.tag.value.name.value != ""
    ensures r.Some? ==> r == link.tag.value.name
  {
    match link.tag
    case None => None
    case Some(t) => if t.name.Some? && t.name.value != "" then t.name else None
  }

  /** `links.map(tag => tag.tags_id?.name).filter(Boolean)`. */
  function NamesOf(links: seq<TagLink>): (r: seq<string>)
    ensures |r| <= |links|
    ensures forall i :: 0 <= i < |r| ==> r[i] != ""
    ensures forall i :: 0 <= i < |r| ==> exists j :: 0 <= j < |links| && LinkName(links[j]) == Some(r[i])
  {
    if |links| == 0 then []
    else
      var rest := NamesOf(links[1..]);
      assert forall i :: 0 <= i < |rest| ==> exists j :: 0 <= j < |links| && LinkName(links[j]) == Some(rest[i]) by {
        forall i | 0 <= i < |rest|
          ensures exists j :: 0 <= j < |links| && LinkName(links[j]) == Some(rest[i])
        {
          var j :| 0 <= j < |links[1..]| && LinkName(links[1..][j]) == Some(rest[i]);
          assert links[1..][j] == links[j + 1];
        }
      }
      match LinkName(links[0])
      case Some(n) => [n] + rest
      case None => rest
  }

  /** `meme.tags?.map(...).filter(Boolean) || []`. */
  function TagNames(tags: Option<seq<TagLink>>): (r: seq<string>)
    ensures tags.None? ==> r == []
  {
    match tags
    case None => []
    case Some(links) => NamesOf(links)
  }

  /** Tag names keep the relation's order: the names of a concatenation are the concatenated names. */
  lemma {:induction false} NamesOfAppend(a: seq<TagLink>, b: seq<TagLink>)
    ensures NamesOf(a + b) == NamesOf(a) + NamesOf(b)
    decreases |a|
  {
    if |a| == 0 {
      assert a + b == b;
    } else {
      assert (a + b)[1..] == a[1..] + b;
      assert (a + b)[0] == a[0];
      NamesOfAppend(a[1..], b);
    }
  }

  /** A link with a non-empty name contributes exactly that name; any other link contributes nothing. */
  lemma NamesOfSingle(link: TagLink)
    ensures NamesOf([link]) == (if LinkName(link).Some? then [LinkName(link).value] else [])
  {
    assert [link][1..] == [];
  }

  /** `` `${first || ''} ${last || ''}`.trim() `` over an optional `user_created`. */
  function CreatorName(user: Option<User>): (r: string)
    ensures Trimmed(r)
  {
    var first := if user.Some? then OrEmpty(user.value.firstName) else "";
    var last := if user.Some? then OrEmpty(user.value.lastName) else "";
    Trim(first + " " + last)
  }

  /** `user_created?.id`. */
  function CreatorId(user: Option<User>): Option<Key> {
    match user
    case None => None
    case Some(u) => u.id
  }

  /** `parseInt(x) || 0`: a failed parse (NaN) becomes 0. */
  function CounterOrZero(parsed: Option<int>): (r: int)
    ensures parsed.None? ==> r == 0
    ensures parsed.Some? ==> r == parsed.value
  {
    parsed.GetOr(0)
  }

  /**
   * With both names present, the first not starting and the last not ending with
   * whitespace, the creator is "first last"; inner whitespace is kept.
   */
  lemma CreatorBothNames(u: User)
    requires u.firstName.Some? && u.lastName.Some?
    requires u.firstName.value != "" && u.lastName.value != ""
    requires !IsWhitespace(u.firstName.value[0])
    requires !IsWhitespace(u.lastName.value[|u.lastName.value| - 1])
    ensures CreatorName(Some(u)) == u.firstName.value + " " + u.lastName.value
  {
    var first, last := u.firstName.value, u.lastName.value;
    var r := first + " " + last;
    assert r[0] == first[0] && r[|r| - 1] == last[|last| - 1];
    TrimSurrounded("", r, "");
    assert "" + r + "" == r;
  }

  /** A missing last name leaves only the first name, without the separating space. */
  lemma CreatorFirstNameOnly(u: User)
    requires u.firstName.Some? && Trimmed(u.firstName.value)
    requires u.lastName.None? || u.lastName.value == ""
    ensures CreatorName(Some(u)) == u.firstName.value
  {
    TrimSurrounded("", u.firstName.value, " ");
    assert "" + u.firstName.value + " " == u.firstName.value + " " + "";
  }

  /** A missing first name leaves only the last name, without the separating space. */
  lemma CreatorLastNameOnly(u: User)
    requires u.lastName.Some? && Trimmed(u.lastName.value)
    requires u.firstName.None? || u.firstName.value == ""
    ensures CreatorName(Some(u)) == u.lastName.value
  {
    TrimSurrounded(" ", u.lastName.value, "");
    assert " " + u.lastName.value + "" == "" + " " + u.lastName.value;
  }

  /** No creator, or one without names, gives the empty creator name. */
  lemma CreatorMissing(user: Option<User>)
    requires user.None? || (OrEmpty(user.value.firstName) == "" && OrEmpty(user.value.lastName) == "")
    ensures CreatorName(user) == ""
  {
    TrimSurrounded(" ", "", "");
    assert "" + " " + "" == " " + "" + "";
  }

  // ---------------------------------------------------------------------------
  // The search index

  /** Ids of a batch of documents. */
  function Ids(docs: seq<Doc>): (r: set<Key>)
    ensures forall i :: 0 <= i < |docs| ==> docs[i].id in r
    ensures forall k :: k in r ==> exists i :: 0 <= i < |docs| && docs[i].id == k
    decreases |docs|
  {
    if |docs| == 0 then {}
    else Ids(docs[..|docs| - 1]) + {docs[|docs| - 1].id}
  }

  /** A document that no later document of its batch replaces. */
  predicate LastWithId(docs: seq<Doc>, i: int) {
    0 <= i < |docs| && forall j :: i < j < |docs| ==> docs[j].id != docs[i].id
  }

  /**
   * `index.addDocuments(docs)` / `index.updateDocuments(docs)`: each document is
   * stored under its id, replacing any document there; within one batch the
   * last document with a given id wins.
   */
  function AddDocuments(index: Index, docs: seq<Doc>): (r: Index)
    ensures r.Keys == index.Keys + Ids(docs)
    ensures forall k :: k in index && k !in Ids(docs) ==> r[k] == index[k]
    decreases |docs|
  {
    if |docs| == 0 then index
    else
      var last := docs[|docs| - 1];
      AddDocuments(index, docs[..|docs| - 1])[last.id := last]
  }

  /** Every document that is the last of its id in the batch is what the index holds afterwards. */
  lemma {:induction false} AddDocumentsLastWins(index: Index, docs: seq<Doc>, i: int)
    requires LastWithId(docs, i)
    ensures docs[i].id in AddDocuments(index, docs)
    ensures AddDocuments(index, docs)[docs[i].id] == docs[i]
    decreases |docs|
  {
    var front := docs[..|docs| - 1];
    if i < |docs| - 1 {
      assert docs[|docs| - 1].id != docs[i].id;
      assert front[i] == docs[i];
      assert LastWithId(front, i) by {
        forall j | i < j < |front| ensures front[j].id != front[i].id {
          assert front[j] == docs[j];
        }
      }
      AddDocumentsLastWins(index, front, i);
    }
  }

  /** `index.deleteDocuments(keys)`: every listed key is removed; absent keys are ignored. */
  function DeleteDocuments(index: Index, keys: seq<Key>): (r: Index)
    ensures forall k :: k in r <==> k in index && k !in keys
    ensures forall k :: k in r ==> r[k] == index[k]
  {
    map k | k in index && k !in keys :: index[k]
  }
}

=== FILE: search.dfy ===
/**
 * The search endpoints: translation of the query parameters of `GET /memes`
 * into the engine's filter expression, sort list and pagination, the
 * `hasNext` flag of the response, and the `GET /memes/suggest` shortcut and
 * suggestion mapping. The engine's hits are an input.
 */
module Search {
  import opened Wrappers
  import opened Text

  /** A numeric query parameter: absent (the default applies), or given with the result of `parseInt` (`None` is NaN). */
  datatype IntArg = Absent | Given(parsed: Option<int>)

  /** `tags` as the query parser delivers it: absent, one value, or a repeated parameter. */
  datatype TagsArg = NoTags | OneTag(tag: string) | ManyTags(tags: seq<string>)

  datatype SearchParams = SearchParams(
    q: Option<string>,
    limit: IntArg,
    offset: IntArg,
    tags: TagsArg,
    creator: Option<string>,
    sort: Option<string>)

  /** The options of `index.search` that depend on the request (display options are fixed). */
  datatype SearchOptions = SearchOptions(
    limit: Option<int>,
    offset: Option<int>,
    filter: Option<string>,
    sort: Option<seq<string>>)

  datatype Pagination = Pagination(offset: Option<int>, limit: Option<int>, hasNext: bool)

  datatype SearchResponse<H> = SearchResponse(hits: seq<H>, query: Option<string>, pagination: Pagination)

  const DefaultLimit := 20
  const DefaultOffset := 0
  const DefaultSuggestLimit := 5

  /** JavaScript truthiness of an optional string. */
  predicate Truthy(x: Option<string>) {
    x.Some? && x.value != ""
  }

  /** `parseInt(param)` where a missing parameter takes the default number. */
  function IntParam(arg: IntArg, default: int): (r: Option<int>)
    ensures arg.Absent? ==> r == Some(default)
    ensures arg.Given? ==> r == arg.parsed
  {
    match arg
    case Absent => Some(default)
    case Given(p) => p
  }

  // ---------------------------------------------------------------------------
  // Filters

  /** The tag list when `if (tags)` holds; a single value counts as a one-element list. */
  function TagValues(tags: TagsArg): (r: Option<seq<string>>)
    ensures tags.NoTags? ==> r.None?
    ensures tags.OneTag? ==> (r.Some? <==> tags.tag != "") && (r.Some? ==> r.value == [tags.tag])
    ensures tags.ManyTags? ==> r == Some(tags.tags)
  {
    match tags
    case NoTags => None
    case OneTag(t) => if t == "" then None else Some([t])
    case ManyTags(ts) => Some(ts)
  }

  /** Each tag wrapped in double quotes, in order. */
  function QuoteAll(tags: seq<string>): (r: seq<string>)
    ensures |r| == |tags|
    ensures forall i :: 0 <= i < |tags| ==> r[i] == "\"" + tags[i] + "\""
  {
    if |tags| == 0 then [] else ["\"" + tags[0] + "\""] + QuoteAll(tags[1..])
  }

  /** `` `tags IN [${tagList.map(t => `"${t}"`).join(',')}]` ``. */
  function TagsClause(tags: seq<string>): string {
    "tags IN [" + Join(QuoteAll(tags), ",") + "]"
  }

  /** `` `creator_id = "${creator}"` ``. */
  function CreatorClause(creator: string): string {
    "creator_id = \"" + creator + "\""
  }

  /** The clauses pushed onto `filters`, tags first. */
  function FilterClauses(tags: TagsArg, creator: Option<string>): (r: seq<string>)
    ensures |r| == (if TagValues(tags).Some? then 1 else 0) + (if Truthy(creator) then 1 else 0)
    ensures TagValues(tags).Some? ==> r[0] == TagsClause(TagValues(tags).value)
    ensures Truthy(creator) ==> r[|r| - 1] == CreatorClause(creator.value)
  {
    (if TagValues(tags).Some? then [TagsClause(TagValues(tags).value)] else [])
    + (if Truthy(creator) then [CreatorClause(creator.value)] else [])
  }

  /** The `filter` option: clauses joined with " AND ", tags clause first; no filter when there is no clause. */
  lemma FilterCases(tags: TagsArg, creator: Option<string>)
    ensures var clauses := FilterClauses(tags, creator);
      var f := if |clauses| == 0 then None else Some(Join(clauses, " AND "));
      && (TagValues(tags).None? && !Truthy(creator) ==> f.None?)
      && (TagValues(tags).Some? && !Truthy(creator) ==> f == Some(TagsClause(TagValues(tags).value)))
      && (TagValues(tags).None? && Truthy(creator) ==> f == Some(CreatorClause(creator.value)))
      && (TagValues(tags).Some? && Truthy(creator) ==>
            f == Some(TagsClause(TagValues(tags).value) + " AND " + CreatorClause(creator.value)))
  {
    if TagValues(tags).Some? && Truthy(creator) {
      JoinPair(TagsClause(TagValues(tags).value), CreatorClause(creator.value), " AND ");
    }
  }

  /** A list with one tag gives `tags IN ["t"]`; a single value is treated the same way. */
  lemma SingleTagClause(t: string)
    requires t != ""
    ensures TagValues(OneTag(t)) == TagValues(ManyTags([t]))
    ensures TagsClause([t]) == "tags IN [\"" + t + "\"]"
  {
  }

  // ---------------------------------------------------------------------------
  // Sort directives

  /** One sort token: `x_asc` becomes `x:asc`, `x_desc` becomes `x:desc` (first occurrence replaced); others are dropped. */
  function SortDirective(token: string): (r: Option<string>)
    ensures r.Some? <==> EndsWith(token, "_asc") || EndsWith(token, "_desc")
    ensures EndsWith(token, "_asc") ==> r == Some(ReplaceFirst(token, "_asc", ":asc"))
    ensures !EndsWith(token, "_asc") && EndsWith(token, "_desc") ==> r == Some(ReplaceFirst(token, "_desc", ":desc"))
  {
    if EndsWith(token, "_asc") then Some(ReplaceFirst(token, "_asc", ":asc"))
    else if EndsWith(token, "_desc") then Some(ReplaceFirst(token, "_desc", ":desc"))
    else None
  }

  /** The directives of the tokens that have one, in token order. */
  function SortDirectives(tokens: seq<string>): (r: seq<string>)
    ensures |r| <= |tokens|
    decreases |tokens|
  {
    if |tokens| == 0 then []
    else
      var last := SortDirective(tokens[|tokens| - 1]);
      SortDirectives(tokens[..|tokens| - 1]) + (if last.Some? then [last.value] else [])
  }

  /** Translation keeps the input order: the directives of a concatenation are the concatenated directives. */
  lemma {:induction false} SortDirectivesAppend(a: seq<string>, b: seq<string>)
    ensures SortDirectives(a + b) == SortDirectives(a) + SortDirectives(b)
    decreases |b|
  {
    if |b| == 0 {
      assert a + b == a;
    } else {
      var b' := b[..|b| - 1];
      assert (a + b)[..|a + b| - 1] == a + b';
      assert (a + b)[|a + b| - 1] == b[|b| - 1];
      SortDirectivesAppend(a, b');
    }
  }

  lemma SortDirectivesSingle(t: string)
    ensures SortDirectives([t]) == (if SortDirective(t).Some? then [SortDirective(t).value] else [])
  {
    assert [t][..0] == [];
  }

  /** A field followed by `_asc` sorts ascending on that field, when the field itself does not contain `_asc`. */
  lemma AscendingDirective(field: string)
    requires forall k :: 0 <= k ==> !OccursAt(field, "_asc", k)
    ensures SortDirective(field + "_asc") == Some(field + ":asc")
  {
    assert EndsWith(field + "_asc", "_asc") by { assert (field + "_asc")[|field|..] == "_asc"; }
    ReplaceOnlySuffix(field, "_asc", ":asc");
  }

  /** A field followed by `_desc` sorts descending on that field, when the field itself does not contain `_desc`. */
  lemma DescendingDirective(field: string)
    requires forall k :: 0 <= k ==> !OccursAt(field, "_desc", k)
    ensures SortDirective(field + "_desc") == Some(field + ":desc")
  {
    var t := field + "_desc";
    assert EndsWith(t, "_desc") by { assert t[|field|..] == "_desc"; }
    assert !EndsWith(t, "_asc") by { assert t[|t| - 1 - 3] == 'd'; }
    ReplaceOnlySuffix(field, "_desc", ":desc");
  }

  /** A token with neither suffix yields no directive. */
  lemma UnknownSuffixDropped(tokens: seq<string>, t: string)
    requires !EndsWith(t, "_asc") && !EndsWith(t, "_desc")
    ensures SortDirectives(tokens + [t]) == SortDirectives(tokens)
  {
    assert (tokens + [t])[..|tokens|] == tokens;
  }

  /**
   * `sort.split(',').forEach(...)`: the kept directives, and the `sort` option
   * only when at least one survives.
   */
  method TranslateSort(sort: string) returns (r: Option<seq<string>>)
    ensures r.Some? ==> r.value == SortDirectives(Split(sort, ',')) && |r.value| > 0
    ensures r.None? ==> SortDirectives(Split(sort, ',')) == []
  {
    var tokens := Split(sort, ',');
    var sortOptions: seq<string> := [];
    var i := 0;
    while i < |tokens|
      invariant 0 <= i <= |tokens|
      invariant sortOptions == SortDirectives(tokens[..i])
    {
      var s := tokens[i];
      assert tokens[..i + 1] == tokens[..i] + [s];
      SortDirectivesAppend(tokens[..i], [s]);
      SortDirectivesSingle(s);
      if EndsWith(s, "_asc") {
        sortOptions := sortOptions + [ReplaceFirst(s, "_asc", ":asc")];
      } else if EndsWith(s, "_desc") {
        sortOptions := sortOptions + [ReplaceFirst(s, "_desc", ":desc")];
      }
      i := i + 1;
    }
    assert tokens[..i] == tokens;
    r := if |sortOptions| > 0 then Some(sortOptions) else None;
  }

  // ---------------------------------------------------------------------------
  // The handler

  /** The request-dependent search options of `GET /memes`. */
  method BuildSearchOptions(p: SearchParams) returns (opts: SearchOptions)
    ensures opts.limit == IntParam(p.limit, DefaultLimit)
    ensures opts.offset == IntParam(p.offset, DefaultOffset)
    ensures var clauses := FilterClauses(p.tags, p.creator);
      opts.filter == if |clauses| == 0 then None else Some(Join(clauses, " AND "))
    ensures !Truthy(p.sort) ==> opts.sort.None?
    ensures Truthy(p.sort) ==>
      var directives := SortDirectives(Split(p.sort.value, ','));
      opts.sort == if |directives| == 0 then None else Some(directives)
  {
    opts := SearchOptions(IntParam(p.limit, DefaultLimit), IntParam(p.offset, DefaultOffset), None, None);
    var filters: seq<string> := [];
    var tagList := TagValues(p.tags);
    if tagList.Some? {
      filters := filters + [TagsClause(tagList.value)];
    }
    if Truthy(p.creator) {
      filters := filters + [CreatorClause(p.creator.value)];
    }
    if |filters| > 0 {
      opts := opts.(filter := Some(Join(filters, " AND ")));
    }
    if Truthy(p.sort) {
      var sortOptions := TranslateSort(p.sort.value);
      if sortOptions.Some? {
        opts := opts.(sort := sortOptions);
      }
    }
  }

  /**
   * `GET /memes` once the engine is reachable: the query text searched (`q || ''`),
   * the options, and the response built from the engine's hits.
   */
  method HandleSearch<H>(p: SearchParams, hits: seq<H>) returns (query: string, opts: SearchOptions, resp: SearchResponse<H>)
    ensures query == (if Truthy(p.q) then p.q.value else "")
    ensures opts.limit == IntParam(p.limit, DefaultLimit) && opts.offset == IntParam(p.offset, DefaultOffset)
    ensures resp.hits == hits && resp.query == p.q
    ensures resp.pagination.limit == opts.limit && resp.pagination.offset == opts.offset
    ensures resp.pagination.hasNext <==> opts.limit == Some(|hits|)
    ensures p.limit.Absent? ==> (resp.pagination.hasNext <==> |hits| == 20)
  {
    query := if Truthy(p.q) then p.q.value else "";
    opts := BuildSearchOptions(p);
    var limit := IntParam(p.limit, DefaultLimit);
    resp := SearchResponse(hits, p.q, Pagination(IntParam(p.offset, DefaultOffset), limit, limit == Some(|hits|)));
  }

  // ---------------------------------------------------------------------------
  // Suggestions

  /** A hit of the suggestion search; `formattedTitle` is `_formatted?.title`. */
  datatype Hit = Hit(id: string, title: string, formattedTitle: Option<string>)

  datatype Suggestion = Suggestion(id: string, title: string, highlighted: string)

  /** The search the endpoint issues, if any. */
  datatype SuggestRequest = SuggestRequest(q: string, limit: Option<int>)

  datatype SuggestOutcome = SuggestOutcome(request: Option<SuggestRequest>, suggestions: seq<Suggestion>)

  /** `hit => ({ id, title, highlighted: hit._formatted?.title || hit.title })`. */
  function ToSuggestion(hit: Hit): (r: Suggestion)
    ensures r.id == hit.id && r.title == hit.title
    ensures Truthy(hit.formattedTitle) ==> r.highlighted == hit.formattedTitle.value
    ensures !Truthy(hit.formattedTitle) ==> r.highlighted == hit.title
  {
    Suggestion(hit.id, hit.title, if Truthy(hit.formattedTitle) then hit.formattedTitle.value else hit.title)
  }

  /**
   * `GET /memes/suggest`: an empty list without searching when `q` is missing or
   * empty; otherwise one suggestion per hit, in order.
   */
  function Suggest(q: Option<string>, limit: IntArg, hits: seq<Hit>): (r: SuggestOutcome)
    ensures !Truthy(q) ==> r.request.None? && r.suggestions == []
    ensures Truthy(q) ==> r.request == Some(SuggestRequest(q.value, IntParam(limit, DefaultSuggestLimit)))
    ensures Truthy(q) ==> |r.suggestions| == |hits|
    ensures Truthy(q) ==> forall i :: 0 <= i < |hits| ==> r.suggestions[i] == ToSuggestion(hits[i])
  {
    if !Truthy(q) then SuggestOutcome(None, [])
    else
      SuggestOutcome(
        Some(SuggestRequest(q.value, IntParam(limit, DefaultSuggestLimit))),
        seq(|hits|, i requires 0 <= i < |hits| => ToSuggestion(hits[i])))
  }
}

=== FILE: search_setup.dfy ===
/**
 * The setup endpoint's backfill: the attribute lists it configures on the index,
 * the projection of every stored meme to a document, the bulk add, and the
 * response it reports.
 */
module SearchSetup {
  import opened Wrappers
  import opened Keys
  import opened Memes
  import MeilisearchSync

  /** The attribute lists configured on the index. */
  datatype Settings = Settings(searchable: seq<string>, filterable: seq<string>, sortable: seq<string>)

  /** What `updateSearchableAttributes`, `updateFilterableAttributes` and `updateSortableAttributes` set. */
  const ConfiguredSettings := Settings(
    ["title", "searchable_content", "tags", "creator"],
    ["tags", "creator_id", "date_created"],
    ["likes", "views", "date_created"])

  /** The `configuration` object of the success response, written out separately in the handler. */
  const ReportedSettings := Settings(
    ["title", "searchable_content", "tags", "creator"],
    ["tags", "creator_id", "date_created"],
    ["likes", "views", "date_created"])

  /**
   * The configuration the response reports is the one applied to the index, and
   * it makes filterable the two attributes the search handler filters on.
   */
  lemma ReportedMatchesConfigured()
    ensures ReportedSettings == ConfiguredSettings
    ensures "tags" in ConfiguredSettings.filterable && "creator_id" in ConfiguredSettings.filterable
  {
  }

  /** The body of the setup response; `taskId` and `configuration` only when documents were added. */
  datatype SetupResponse = SetupResponse(
    success: bool,
    message: string,
    documentsCount: nat,
    taskId: Option<int>,
    configuration: Option<Settings>)

  /** The index after setup and the response. */
  datatype SetupResult = SetupResult(settings: Settings, docs: Index, response: SetupResponse)

  /**
   * The backfill document of one meme. Unlike the synchroniser, the searchable
   * text is the title alone and the document has no `status`.
   */
  function BackfillDocument(m: Meme): (d: Doc)
    ensures d.id == m.id && d.status.None? && d.collection == Collection
    ensures d.title == OrEmpty(m.title) && d.searchableContent == OrEmpty(m.title)
    ensures d.tags == TagNames(m.tags) && d.creator == CreatorName(m.userCreated)
    ensures d.creatorId == CreatorId(m.userCreated)
    ensures d.likes == CounterOrZero(m.likes) && d.views == CounterOrZero(m.views)
    ensures d.dateCreated == m.dateCreated
  {
    Doc(
      id := m.id,
      title := OrEmpty(m.title),
      searchableContent := OrEmpty(m.title),
      tags := TagNames(m.tags),
      creator := CreatorName(m.userCreated),
      creatorId := CreatorId(m.userCreated),
      likes := CounterOrZero(m.likes),
      views := CounterOrZero(m.views),
      status := None,
      dateCreated := m.dateCreated,
      collection := Collection)
  }

  /** `existingMemes.map(meme => ({ ... }))`: one document per meme, in order, whatever its status. */
  function BackfillDocuments(memes: seq<Meme>): (docs: seq<Doc>)
    ensures |docs| == |memes|
    ensures forall i :: 0 <= i < |memes| ==> docs[i] == BackfillDocument(memes[i])
    ensures forall i :: 0 <= i < |memes| ==> docs[i].id == memes[i].id
  {
    seq(|memes|, i requires 0 <= i < |memes| => BackfillDocument(memes[i]))
  }

  /**
   * The two projections side by side: for a published meme they agree except that
   * the synchroniser appends " " and the description to the searchable text and
   * keeps `status`; an unpublished meme gets a backfill document but no
   * synchroniser document.
   */
  lemma BackfillVersusSync(m: Meme)
    ensures m.status != Some(Published) ==> MeilisearchSync.TransformMemeForSearch(Some(m)).None?
    ensures m.status == Some(Published) ==>
      MeilisearchSync.TransformMemeForSearch(Some(m)) ==
        Some(BackfillDocument(m).(
          searchableContent := BackfillDocument(m).searchableContent + " " + OrEmpty(m.description),
          status := Some(Published)))
  {
  }

  /** The searchable text of the two projections differs for every published meme. */
  lemma SearchableTextDiffers(m: Meme)
    requires m.status == Some(Published)
    ensures MeilisearchSync.TransformMemeForSearch(Some(m)).value.searchableContent != BackfillDocument(m).searchableContent
  {
    var synced := MeilisearchSync.TransformMemeForSearch(Some(m)).value.searchableContent;
    assert |synced| > |BackfillDocument(m).searchableContent|;
  }

  /**
   * `POST /meilisearch`: configure the attribute lists, then add the backfill
   * documents only when there is at least one meme. `taskUid` is the id
   * the engine returns for the bulk add.
   */
  function Setup(index: Index, memes: seq<Meme>, taskUid: int): (r: SetupResult)
    ensures r.settings == ConfiguredSettings
    ensures r.response.success && r.response.documentsCount == |memes|
    ensures |memes| == 0 ==> r.docs == index && r.response.taskId.None? && r.response.configuration.None?
    ensures |memes| > 0 ==> r.response.taskId == Some(taskUid) && r.response.configuration == Some(r.settings)
    ensures forall i :: 0 <= i < |memes| ==> memes[i].id in r.docs
    ensures forall k :: k in index ==> k in r.docs
    ensures |memes| > 0 ==> r.docs == AddDocuments(index, BackfillDocuments(memes))
  {
    var documents := BackfillDocuments(memes);
    if |documents| > 0 then
      SetupResult(
        ConfiguredSettings,
        AddDocuments(index, documents),
        SetupResponse(true, "Index Meilisearch configuré avec succès", |documents|, Some(taskUid), Some(ReportedSettings)))
    else
      SetupResult(
        ConfiguredSettings,
        index,
        SetupResponse(true, "Index configuré mais aucun meme trouvé", 0, None, None))
  }

  /** After setup, a meme whose id no later meme shares is indexed as its backfill document. */
  lemma SetupIndexesEachMeme(index: Index, memes: seq<Meme>, taskUid: int, i: int)
    requires 0 <= i < |memes|
    requires forall j :: i < j < |memes| ==> memes[j].id != memes[i].id
    ensures Setup(index, memes, taskUid).docs[memes[i].id] == BackfillDocument(memes[i])
  {
    var documents := BackfillDocuments(memes);
    assert LastWithId(documents, i);
    AddDocumentsLastWins(index, documents, i);
  }
}

=== FILE: text.dfy ===
/**
 * String operations of the JavaScript runtime that the modelled handlers rely on:
 * `Array.prototype.join`, `String.prototype.split` on one character,
 * `String.prototype.trim`, `endsWith`, `indexOf` and `replace` with a string pattern.
 */
module Text {
  import opened Wrappers

  /** `parts.join(sep)`. */
  function Join(parts: seq<string>, sep: string): (r: string)
    ensures |parts| == 0 ==> r == ""
  {
    if |parts| == 0 then ""
    else if |parts| == 1 then parts[0]
    else parts[0] + sep + Join(parts[1..], sep)
  }

  /** Sum of the lengths of `parts`. */
  function TotalLength(parts: seq<string>): nat {
    if |parts| == 0 then 0 else |parts[0]| + TotalLength(parts[1..])
  }

  lemma JoinCons(x: string, xs: seq<string>, sep: string)
    requires |xs| > 0
    ensures Join([x] + xs, sep) == x + sep + Join(xs, sep)
  {
    assert ([x] + xs)[1..] == xs;
  }

  lemma JoinPair(x: string, y: string, sep: string)
    ensures Join([x, y], sep) == x + sep + y
  {
    assert [x, y][1..] == [y];
  }

  /** The joined text holds every piece and one separator between consecutive pieces. */
  lemma {:induction false} JoinLength(parts: seq<string>, sep: string)
    ensures |Join(parts, sep)| == TotalLength(parts) + (if |parts| == 0 then 0 else (|parts| - 1) * |sep|)
  {
    if |parts| > 1 {
      JoinLength(parts[1..], sep);
    }
  }

  lemma JoinFirst(parts: seq<string>, sep: string)
    requires |parts| > 0
    ensures |Join(parts, sep)| >= |parts[0]|
  {
  }

  /** `s.split(c)`: the maximal pieces of `s` between occurrences of `c`; "" splits to [""]. */
  function Split(s: string, c: char): (parts: seq<string>)
    ensures |parts| >= 1
    ensures forall i :: 0 <= i < |parts| ==> c !in parts[i]
    decreases |s|
  {
    if |s| == 0 then [""]
    else
      var rest := Split(s[1..], c);
      if s[0] == c then [""] + rest
      else [[s[0]] + rest[0]] + rest[1..]
  }

  /** Joining the pieces of a split with the separator gives the string back. */
  lemma {:induction false} JoinSplit(s: string, c: char)
    ensures Join(Split(s, c), [c]) == s
    decreases |s|
  {
    if |s| > 0 {
      var rest := Split(s[1..], c);
      JoinSplit(s[1..], c);
      if s[0] == c {
        JoinCons("", rest, [c]);
        assert s == [c] + s[1..];
      } else if |rest| == 1 {
        assert Split(s, c) == [[s[0]] + rest[0]];
        assert s == [s[0]] + s[1..];
      } else {
        assert Split(s, c) == [[s[0]] + rest[0]] + rest[1..];
        JoinCons([s[0]] + rest[0], rest[1..], [c]);
        JoinCons(rest[0], rest[1..], [c]);
        assert rest == [rest[0]] + rest[1..];
        assert s == [s[0]] + s[1..];
      }
    }
  }

  lemma {:induction false} SplitNoSeparator(s: string, c: char)
    requires c !in s
    ensures Split(s, c) == [s]
    decreases |s|
  {
    if |s| > 0 {
      assert c !in s[1..] by { assert forall i :: 0 <= i < |s| - 1 ==> s[1..][i] == s[i + 1]; }
      SplitNoSeparator(s[1..], c);
      assert s == [s[0]] + s[1..];
    }
  }

  lemma {:induction false} SplitAfterPiece(a: string, c: char, b: string)
    requires c !in a
    ensures Split(a + [c] + b, c) == [a] + Split(b, c)
    decreases |a|
  {
    if |a| == 0 {
      assert a + [c] + b == [c] + b;
      assert ([c] + b)[1..] == b;
    } else {
      assert c !in a[1..] by { assert forall i :: 0 <= i < |a| - 1 ==> a[1..][i] == a[i + 1]; }
      SplitAfterPiece(a[1..], c, b);
      assert (a + [c] + b)[1..] == a[1..] + [c] + b;
      assert [a[0]] + a[1..] == a;
    }
  }

  /** Splitting a join recovers the pieces when no piece contains the separator. */
  lemma {:induction false} SplitJoin(parts: seq<string>, c: char)
    requires |parts| >= 1
    requires forall i :: 0 <= i < |parts| ==> c !in parts[i]
    ensures Split(Join(parts, [c]), c) == parts
    decreases |parts|
  {
    if |parts| == 1 {
      SplitNoSeparator(parts[0], c);
    } else {
      SplitJoin(parts[1..], c);
      assert parts == [parts[0]] + parts[1..];
      JoinCons(parts[0], parts[1..], [c]);
      SplitAfterPiece(parts[0], c, Join(parts[1..], [c]));
    }
  }

  // ---------------------------------------------------------------------------
  // Whitespace and trimming

  /** The characters that `String.prototype.trim` removes (ECMAScript WhiteSpace and LineTerminator). */
  predicate IsWhitespace(ch: char) {
    || ch == ' ' || ch == '\t' || ch == '\n' || ch == '\r'
    || ch == '\U{000B}' || ch == '\U{000C}' || ch == '\U{00A0}' || ch == '\U{1680}'
    || ('\U{2000}' <= ch <= '\U{200A}')
    || ch == '\U{2028}' || ch == '\U{2029}' || ch == '\U{202F}' || ch == '\U{205F}'
    || ch == '\U{3000}' || ch == '\U{FEFF}'
  }

  predicate AllWhitespace(s: string) {
    forall i :: 0 <= i < |s| ==> IsWhitespace(s[i])
  }

  /** Neither the first nor the last character of `s` is whitespace. */
  predicate Trimmed(s: string) {
    |s| == 0 || (!IsWhitespace(s[0]) && !IsWhitespace(s[|s| - 1]))
  }

  /** Number of leading whitespace characters of `s`. */
  function LeadingWhitespace(s: string): (n: nat)
    ensures n <= |s|
    ensures AllWhitespace(s[..n])
    ensures n < |s| ==> !IsWhitespace(s[n])
    decreases |s|
  {
    if |s| == 0 || !IsWhitespace(s[0]) then 0
    else
      var n := 1 + LeadingWhitespace(s[1..]);
      assert s[..n] == [s[0]] + s[1..][..n - 1];
      n
  }

  /** Length of `s` once its trailing whitespace is removed. */
  function TrailingStart(s: string): (n: nat)
    ensures n <= |s|
    ensures AllWhitespace(s[n..])
    ensures n > 0 ==> !IsWhitespace(s[n - 1])
    decreases |s|
  {
    if |s| == 0 || !IsWhitespace(s[|s| - 1]) then |s|
    else
      var p := s[..|s| - 1];
      var n := TrailingStart(p);
      assert AllWhitespace(s[n..]) by {
        forall i | 0 <= i < |s| - n
          ensures IsWhitespace(s[n..][i])
        {
          if i < |p| - n {
            assert s[n..][i] == p[n..][i];
          }
        }
      }
      assert n > 0 ==> s[n - 1] == p[n - 1];
      n
  }

  /** `s.trim()`. */
  function Trim(s: string): (r: string)
    ensures |r| <= |s|
    ensures Trimmed(r)
  {
    var t := s[LeadingWhitespace(s)..];
    t[..TrailingStart(t)]
  }

  lemma {:induction false} LeadingWhitespaceAfter(a: string, t: string)
    requires AllWhitespace(a)
    ensures LeadingWhitespace(a + t) == |a| + LeadingWhitespace(t)
    decreases |a|
  {
    if |a| > 0 {
      assert (a + t)[1..] == a[1..] + t;
      assert AllWhitespace(a[1..]) by { assert forall i :: 0 <= i < |a| - 1 ==> a[1..][i] == a[i + 1]; }
      LeadingWhitespaceAfter(a[1..], t);
    } else {
      assert a + t == t;
    }
  }

  lemma {:induction false} TrailingStartBefore(t: string, b: string)
    requires AllWhitespace(b)
    ensures TrailingStart(t + b) == TrailingStart(t)
    decreases |b|
  {
    if |b| > 0 {
      assert (t + b)[..|t + b| - 1] == t + b[..|b| - 1];
      assert AllWhitespace(b[..|b| - 1]);
      TrailingStartBefore(t, b[..|b| - 1]);
    } else {
      assert t + b == t;
    }
  }

  /**
   * `Trim` characterised: whatever whitespace surrounds a string with no
   * whitespace at either end, trimming yields exactly that string.
   */
  lemma TrimSurrounded(a: string, r: string, b: string)
    requires AllWhitespace(a) && AllWhitespace(b) && Trimmed(r)
    ensures Trim(a + r + b) == r
  {
    var s := a + r + b;
    if |r| == 0 {
      assert s == a + b;
      assert AllWhitespace(a + b);
      LeadingWhitespaceAfter(a + b, "");
      assert a + b + "" == a + b;
    } else {
      assert s == a + (r + b);
      LeadingWhitespaceAfter(a, r + b);
      assert LeadingWhitespace(r + b) == 0;
      assert s[|a|..] == r + b;
      TrailingStartBefore(r, b);
      assert TrailingStart(r) == |r|;
      assert (r + b)[..|r|] == r;
    }
  }

  // ---------------------------------------------------------------------------
  // Searching and replacing

  /** `pat` occurs in `s` starting at position `k`. */
  predicate OccursAt(s: string, pat: string, k: int) {
    0 <= k && k + |pat| <= |s| && s[k..k + |pat|] == pat
  }

  /** `s.indexOf(pat)`, with -1 as `None`. */
  function IndexOf(s: string, pat: string): (r: Option<nat>)
    ensures r.Some? ==> OccursAt(s, pat, r.value)
    ensures r.Some? ==> forall k :: 0 <= k < r.value ==> !OccursAt(s, pat, k)
    ensures r.None? ==> forall k :: 0 <= k ==> !OccursAt(s, pat, k)
    decreases |s|
  {
    if |s| < |pat| then None
    else if s[..|pat|] == pat then Some(0)
    else
      var r := IndexOf(s[1..], pat);
      assert !OccursAt(s, pat, 0);
      match r
      case None =>
        assert forall k :: 1 <= k ==> !OccursAt(s, pat, k) by {
          forall k | 1 <= k ensures !OccursAt(s, pat, k) { OccursShift(s, pat, k - 1); }
        }
        None
      case Some(i) =>
        assert forall k :: 1 <= k < i + 1 ==> !OccursAt(s, pat, k) by {
          forall k | 1 <= k < i + 1 ensures !OccursAt(s, pat, k) { OccursShift(s, pat, k - 1); }
        }
        OccursShift(s, pat, i);
        Some(i + 1)
  }

  lemma OccursShift(s: string, pat: string, k: nat)
    requires |s| > 0
    ensures OccursAt(s, pat, k + 1) <==> OccursAt(s[1..], pat, k)
  {
    if k + 1 + |pat| <= |s| {
      assert s[k + 1..k + 1 + |pat|] == s[1..][k..k + |pat|];
    }
  }

  /** `s.replace(pat, rep)` with a string pattern: only the first occurrence is replaced. */
  function ReplaceFirst(s: string, pat: string, rep: string): (r: string)
    ensures IndexOf(s, pat).None? ==> r == s
    ensures IndexOf(s, pat).Some? ==> |r| == |s| - |pat| + |rep|
    ensures IndexOf(s, pat).Some? ==>
      var i := IndexOf(s, pat).value;
      && r[..i] == s[..i]
      && r[i..i + |rep|] == rep
      && r[i + |rep|..] == s[i + |pat|..]
  {
    match IndexOf(s, pat)
    case None => s
    case Some(i) => s[..i] + rep + s[i + |pat|..]
  }

  /** `s.endsWith(suffix)`. */
  predicate EndsWith(s: string, suffix: string) {
    |suffix| <= |s| && s[|s| - |suffix|..] == suffix
  }

  /** A suffix of `b` is a suffix of `a + b`. */
  lemma EndsWithAfter(a: string, b: string, suffix: string)
    requires EndsWith(b, suffix)
    ensures EndsWith(a + b, suffix)
  {
    assert (a + b)[|a + b| - |suffix|..] == b[|b| - |suffix|..];
  }

  /** Appending the same text to a string and to its suffix keeps it a suffix. */
  lemma EndsWithExtended(s: string, suffix: string, more: string)
    requires EndsWith(s, suffix)
    ensures EndsWith(s + more, suffix + more)
  {
    assert (s + more)[|s + more| - |suffix + more|..] == s[|s| - |suffix|..] + more;
  }

  /** `s.startsWith(prefix)`. */
  predicate StartsWith(s: string, prefix: string) {
    |prefix| <= |s| && s[..|prefix|] == prefix
  }

  /**
   * When a string ends in `suffix`, the suffix begins with a character found
   * nowhere else in it, and `suffix` does not occur earlier, replacing the first
   * occurrence of `suffix` rewrites exactly that ending.
   */
  lemma ReplaceOnlySuffix(f: string, suffix: string, rep: string)
    requires |suffix| > 0 && suffix[0] !in suffix[1..]
    requires forall k :: 0 <= k ==> !OccursAt(f, suffix, k)
    ensures IndexOf(f + suffix, suffix) == Some(|f|)
    ensures ReplaceFirst(f + suffix, suffix, rep) == f + rep
  {
    var s := f + suffix;
    assert OccursAt(s, suffix, |f|) by { assert s[|f|..|f| + |suffix|] == suffix; }
    forall k | 0 <= k < |f|
      ensures !OccursAt(s, suffix, k)
    {
      if k + |suffix| <= |f| {
        assert s[k..k + |suffix|] == f[k..k + |suffix|];
        assert !OccursAt(f, suffix, k);
      } else {
        var d := |f| - k;
        assert s[k..k + |suffix|][d] == s[|f|] == suffix[0];
        assert suffix[d] == suffix[1..][d - 1];
      }
    }
    var r := IndexOf(s, suffix);
    assert r.Some?;
    assert r.value == |f|;
    assert s[..|f|] == f;
    assert s[|f| + |suffix|..] == [];
  }
}

=== FILE: wrappers.dfy ===
/** Optional values: JavaScript's `null` / `undefined` and failed parses. */
module Wrappers {

  datatype Option<+T> = None | Some(value: T) {

    /** The value, or `default` when there is none (the `x || default` idiom). */
    function GetOr(default: T): T {
      match this
      case Some(v) => v
      case None => default
    }
  }
}
